=== FILE: README.md ===
# Realtime voice session client — a Dafny model

This project models the realtime session client of a career-advisory web
app (`LiveClient`), together with the host component (`App`) that consumes
the client's callbacks.

The client streams microphone audio to a conversational service as base64
16-bit PCM. It decodes the PCM replies the service streams back and schedules
them on one output timeline. It tracks the turn state (idle, listening,
processing, speaking) and accumulates the user's and the model's
transcripts. It also handles barge-in and tears itself down exactly once.

The host turns transcriptions into chat messages, falls back to text mode
when the voice session fails or ends, and guards the text-chat send. It also
decides which messages get a time separator, and it rotates the quotes on the
landing screen.

Everything is modelled as immutable records and pure step functions:

- `results.dfy`: the `Option` and `Result` types.
- `jstext.dfy`: `String.prototype.trim` with the ECMAScript whitespace set.
- `base64.dfy`: `btoa` and `atob` on binary strings.
  - Encoding follows RFC 4648, section 4.
  - Decoding is the "forgiving-base64 decode" of the HTML standard: ASCII whitespace is skipped, one or two trailing `=` are accepted on a multiple of four, and leftover bits are dropped.
  - Any other character, or a length of 1 modulo 4, is an `InvalidCharacterError`.
- `pcm.dfy`: the sample codec.
  - Float32 samples are modelled as `NaN | Infinity | Finite(real)`.
  - Encoding is the clamp-and-scale by 32767, with ECMAScript `ToInt16` as the `Int16Array` store does it.
  - Samples are packed as little-endian bytes and carried in base64.
  - `decodeAudioData` de-interleaves channels and scales by 1/32768.
  - A buffer shape `createBuffer` refuses is an error.
- `liveclient.dfy`: the session record, one step function per input, and the session invariant.
  - Every callback, transport send and audio start or stop the client performs is appended to the record's log, in order.
- `host.dfy`: the host state, the callbacks, the teardown paths, the send guard, time separators and quote rotation.
  - An `App` is the host state, the client it created, and whether its ref still points at that client.

## Model

| member | source | states |
|---|---|---|
| `LiveClient.NewSession` | services/liveClient.ts:18-35 | A new client is not closing, holds no session, is idle with empty buffers and no sources, its cursor is at 0, and it has reported nothing |
| `LiveClient.SetState` | services/liveClient.ts:42-47 | The new state is recorded; the host hears exactly one `StateChanged` when it differs from the old one, and nothing otherwise; no other field changes |
| `LiveClient.SetStateIdempotent` | services/liveClient.ts:42-47 | Setting the current state again changes nothing and emits nothing |
| `LiveClient.Connect` | services/liveClient.ts:49-172 | The completion of `connect`, with the closing flag read again as the code evidently intends (see Findings). A closing client ignores the outcome. A completed setup gives it a live session. A step that throws is reported once through `onError`, with "Failed to connect" for a non-`Error` value |
| `LiveClient.ConnectAsWritten` | services/liveClient.ts:49-172 | The completion of `connect` as written. A completed setup stores a live session and a throw is reported, whether or not the client is closing by then. Away from a disconnect it is exactly `Connect` |
| `LiveClient.LateSetupNeverClosed` | services/liveClient.ts:79-188 | As written, a setup that completes after the disconnect leaves a live session behind. Whatever inputs follow, it stays live and the transport is never closed |
| `LiveClient.LateFailureReported` | services/liveClient.ts:169-172 | As written, a setup that fails after the disconnect is still reported through `onError` |
| `LiveClient.ClosedNeverReconnects` | services/liveClient.ts:182-188 | With the corrected `Connect`, a disconnected client never holds a live session again, whatever inputs follow, and its close stays announced exactly once |
| `LiveClient.ClosingStepKeepsConnected` | services/liveClient.ts:49-138 | With the corrected `Connect` (see Findings), once closing, no input changes whether the client holds a session. As written, a late setup is the exception: `LiveClient.LateSetupNeverClosed` |
| `LiveClient.ClosingRunKeepsConnected` | services/liveClient.ts:49-138 | With the corrected `Connect` (see Findings), once closing, no run of inputs changes whether the client holds a session. As written, a late setup is the exception: `LiveClient.LateSetupNeverClosed` |
| `LiveClient.AnnounceOpen` | services/liveClient.ts:82-84 | Unless closing, `onopen` first tells the host the session is open |
| `LiveClient.SettleOpen` | services/liveClient.ts:82-86 | Unless closing, `onopen` then settles the client to idle, reported only if it was not idle already |
| `LiveClient.HandleAudio` | services/liveClient.ts:90-95 | A message with a non-empty audio payload switches the client to speaking and then plays the payload; an absent or empty payload changes nothing |
| `LiveClient.UndecodableAudioStillSpeaks` | services/liveClient.ts:90-95 | Any non-empty payload that does not decode to a buffer still leaves the client speaking. It starts no source and leaves the cursor where it was; the only report is the switch to speaking, if that was a change |
| `LiveClient.ShortPayloadsDoNotPlay` | services/liveClient.ts:249-250 | Both ways a payload can fail to play occur: "A" is not base64, and "AA==" decodes to one byte, less than one sample |
| `LiveClient.NotBase64` | services/liveClient.ts:236 | "A" fails to decode: one character is a length of 1 modulo 4 |
| `LiveClient.OneByte` | services/liveClient.ts:235-243 | "AA==" decodes to exactly one byte |
| `LiveClient.HandleTranscript` | services/liveClient.ts:97-112 | A non-empty delta is appended to its role's buffer only, and the whole buffer is reported as non-final; an empty or absent delta changes nothing |
| `LiveClient.HandleTurnComplete` | services/liveClient.ts:114-120 | Turn completion reports the user's then the model's buffer as final (empty ones too), empties both, and returns to idle; active sources and the cursor are untouched |
| `LiveClient.HandleInterrupted` | services/liveClient.ts:122-130 | A barge-in stops every active source and forgets them. It rewinds the cursor to 0 and drops the model buffer without reporting it. The user buffer is kept and the client returns to idle |
| `LiveClient.HandleContent` | services/liveClient.ts:90-112 | The audio and transcription part of a message leaves the closing flag alone. It leaves the client speaking when the message carried a non-empty audio payload, and in its earlier state otherwise |
| `LiveClient.HandleMessage` | services/liveClient.ts:87-131 | A closing client ignores messages. Completion or barge-in in a message leaves the client idle with an empty model buffer. A barge-in also leaves no sources and the cursor at 0. Otherwise the client is speaking if the message carried audio, and in its earlier state if not |
| `LiveClient.MessageReports` | services/liveClient.ts:97-130 | The transcription callbacks of one message, in order: a non-final report of each buffer a non-empty delta extends, user first. On turn completion both buffers follow as finals, this message's own deltas included. Audio and barge-in report no transcription |
| `LiveClient.MessageBuffers` | services/liveClient.ts:97-130 | After a message each buffer holds its old text extended by the message's delta. Turn completion empties both, and a barge-in empties the model's |
| `LiveClient.ContentReports` | services/liveClient.ts:97-112 | The first half of a message reports each buffer it extends as non-final, user first |
| `LiveClient.ContentBuffers` | services/liveClient.ts:97-112 | The first half of a message extends each buffer by its non-empty delta only |
| `LiveClient.AudioReportsNothing` | services/liveClient.ts:90-95 | The audio part of a message makes no transcription callback and leaves both buffers alone |
| `LiveClient.TranscriptReports` | services/liveClient.ts:97-112 | A transcription field reports its role's whole buffer as non-final exactly when its delta is non-empty |
| `LiveClient.TurnCompleteReports` | services/liveClient.ts:114-120 | Turn completion reports the user's buffer, then the model's, as finals, and nothing else |
| `LiveClient.InterruptedReportsNothing` | services/liveClient.ts:122-130 | A barge-in makes no transcription callback, so the model text it drops never appears as a final |
| `LiveClient.FlushCarriesLastDelta` | services/liveClient.ts:106-120 | With "ab" buffered, a message carrying the delta "c" and turn completion reports "abc" as non-final, then "" and "abc" as finals |
| `LiveClient.BargeInDropsLastDelta` | services/liveClient.ts:106-130 | With "ab" buffered, a message carrying the delta "c" and a barge-in reports "abc" once as non-final. It then drops the buffer, so no final carries that text |
| `LiveClient.DecodeChunk` | services/liveClient.ts:249-250 | A payload plays exactly when it is base64 of at least two bytes. "AA==" decodes to one byte and fails. The buffer is mono at 24 kHz, with one frame per whole 16-bit sample: frame i is Int16 number i scaled by 1/32768 |
| `LiveClient.PlayAudio` | services/liveClient.ts:245-273 | With no live session, when closing, or for a payload that fails to decode, nothing changes. Otherwise the decoded buffer is scheduled |
| `LiveClient.Schedule` | services/liveClient.ts:257-263 | The buffer starts at the later of the cursor and the current time, never earlier than either. The cursor moves to its end, and it joins the active set under a fresh id |
| `LiveClient.BackToBack` | services/liveClient.ts:257-261 | A chunk that arrives while the previous one is still queued starts exactly where that one ends |
| `LiveClient.BargeInRestartsNow` | services/liveClient.ts:258-261 | After a barge-in, the next chunk starts at the current time. The rewind to 0 happens at line 127, and the `max` with the clock does the rest |
| `LiveClient.SourceEnded` | services/liveClient.ts:264-269 | An ended source leaves the active set. The client turns idle, with one report, exactly when the set is then empty and it was speaking |
| `LiveClient.EndedAfterCloseReportsIdle` | services/liveClient.ts:264-269 | When the last active source ends after the disconnect, while the client was speaking, it still reports idle |
| `LiveClient.Peak` | services/liveClient.ts:157 | The peak of a frame's magnitudes is NaN exactly when some sample is NaN |
| `LiveClient.IsLoud` | services/liveClient.ts:157-158 | A loud frame is never empty and holds no NaN |
| `LiveClient.PeakExceeds` | services/liveClient.ts:157 | The peak of a NaN-free frame exceeds a threshold exactly when some sample's magnitude does |
| `LiveClient.LoudIff` | services/liveClient.ts:157-158 | A frame counts as speech exactly when it holds no NaN and some sample's magnitude exceeds 0.05 |
| `LiveClient.EmptyFrameIsQuiet` | services/liveClient.ts:157 | An empty frame never counts as speech, because `Math.max()` is `-Infinity` |
| `LiveClient.NoteActivity` | services/liveClient.ts:157-160 | A loud frame moves an idle client to listening, with one report. Any other state, or a quieter frame, is left as it is |
| `LiveClient.SendFrame` | services/liveClient.ts:153-166 | With a live session, a loud frame moves an idle client to listening, with one report. The frame is then sent as one encoded blob |
| `LiveClient.CaptureFrame` | services/liveClient.ts:151-167 | Without a live session, or when closing, nothing happens. Otherwise a loud frame moves an idle client to listening and leaves any other state alone. The encoded frame is then sent |
| `LiveClient.SendTextTo` | services/liveClient.ts:175-180 | Text is sent only with a live session and while not closing |
| `LiveClient.TransportFailed` | services/liveClient.ts:135-138 | Unless closing, a transport error is reported once, with "Live API Error" in place of an empty message |
| `LiveClient.DisconnectSession` | services/liveClient.ts:182-211 | The first call raises the closing flag and tells the host once. It then closes the transport if one is live; that close runs in a promise callback, after `onClose` at line 210. Any later call changes nothing |
| `LiveClient.Step` | services/liveClient.ts:49-269 | With the corrected `Connect` (see Findings), once closing the client stays closing. Every input except the end of a source leaves it exactly as it is, and the end of a source can at most report idle. As written, a late connect outcome is a second exception: `LiveClient.LateSetupNeverClosed` and `LiveClient.LateFailureReported` |
| `LiveClient.Run` | services/liveClient.ts:49-269 | With the corrected `Connect` (see Findings), any run of inputs from a closing client keeps it closing and adds nothing to the log but idle reports |
| `LiveClient.SequentialDisjoint` | services/liveClient.ts:257-263 | Buffers queued one after the other never overlap, and all end by the cursor |
| `LiveClient.StepValid` | services/liveClient.ts:42-287 | With the corrected `Connect` (see Findings), every input keeps the session invariant: see `RunValid`. As written, a late setup breaks its clause that a closing client holds no session: `LiveClient.LateSetupNeverClosed` |
| `LiveClient.RunValid` | services/liveClient.ts:42-287 | With the corrected `Connect` (see Findings), any run of inputs keeps the invariant. A closing client has no live session and announced its close exactly once. The host's last reported state is the client's own and no report repeats the previous state. Active sources carry issued ids. Buffers queued since the last barge-in play one after another, ending by the cursor |
| `LiveClient.DisconnectAnnouncedOnce` | services/liveClient.ts:182-211 | With the corrected `Connect` (see Findings), after any history, a disconnect leaves the client closing, with no live session, and the host told of the close exactly once. As written, a disconnect during a pending setup is followed by a stored session that no later disconnect closes: `LiveClient.LateSetupNeverClosed` |
| `LiveClient.ClosedStaysAnnouncedOnce` | services/liveClient.ts:182-184 | Inputs after the close never announce a second one, since `onclose` does not re-enter the teardown |
| `Pcm.ToInt16` | services/liveClient.ts:217 | The `Int16Array` store maps NaN and infinities to 0. It truncates toward zero, wraps modulo 2^16, and is the plain truncation in range |
| `Pcm.Clamp` | services/liveClient.ts:217 | NaN stays NaN, every other result lies in [-1, 1], and values already in range are kept |
| `Pcm.EncodeSample` | services/liveClient.ts:217 | The stored sample is within ±32767. NaN gives 0 and saturated inputs give ±32767. In between it is 32767·x truncated toward zero |
| `Pcm.EncodeDecodeError` | services/liveClient.ts:217 | An in-range sample comes back from the decoder within two steps of 1/32768 |
| `Pcm.EncodeDecodeErrorExceedsOneStep` | services/liveClient.ts:217 | The float32 sample 1 − 2^-16 comes back 1.5 steps low, so one step is not a bound |
| `Pcm.Pack` | services/liveClient.ts:219 | Sample i of the Int16 buffer is at bytes 2i (low) and 2i+1 (high) |
| `Pcm.UnpackPack` | services/liveClient.ts:219 | Viewing packed samples as Int16 gives the samples back |
| `Pcm.PackUnpack` | services/liveClient.ts:277 | For an even number of bytes, viewing as Int16 and packing gives the bytes back |
| `Pcm.Unpack` | services/liveClient.ts:277 | The Int16 view has ⌊bytes/2⌋ samples, each the two's-complement value of its little-endian pair; an odd trailing byte is ignored |
| `Pcm.DecodeEncode` | services/liveClient.ts:226-243 | `decode(encode(b)) == b` for every byte sequence, the empty one included |
| `Pcm.Encode` | services/liveClient.ts:226-233 | `btoa` of the bytes' binary string never fails, and the text has a length that is a multiple of 4 |
| `Pcm.Decode` | services/liveClient.ts:235-243 | `decode` succeeds exactly when `atob` does, and yields the character codes of its result |
| `Pcm.CreateBlob` | services/liveClient.ts:213-224 | A frame is tagged `audio/pcm;rate=16000`. Its data decodes to the little-endian bytes of the encoded samples |
| `Pcm.DecodeAudioData` | services/liveClient.ts:275-287 | Decoding succeeds exactly when `createBuffer` accepts the shape. Channel c of frame i is then Int16 number i·n+c scaled by 1/32768, in [-1, 1) |
| `Pcm.DecodeInterleaved` | services/liveClient.ts:275-287 | Interleaved channels, packed and decoded, come back channel by channel, scaled by 1/32768 |
| `Base64.Btoa` | services/liveClient.ts:232 | `btoa` succeeds exactly on binary strings and yields their base64 encoding; anything else is an `InvalidCharacterError` |
| `Base64.EncodedLength` | services/liveClient.ts:232 | The encoding of n bytes is padded to 4·⌈n/3⌉ characters |
| `Base64.GroupRoundTrip` | services/liveClient.ts:232-236 | The four sextets cut from three bytes regroup into the same three bytes |
| `Base64.Atob` | services/liveClient.ts:236 | `atob` yields a binary string. It fails on a length of 1 modulo 4 after whitespace is removed, and on any character outside the alphabet, whitespace and `=` |
| `Base64.AtobBtoa` | services/liveClient.ts:226-243 | `atob(btoa(s)) == s` for every binary string |
| `Base64.BytesOfSextets` | services/liveClient.ts:226-243 | Regrouping the sextets of a byte string gives the bytes back |
| `JsText.Trim` | App.tsx:168 | The result of `trim` neither starts nor ends with whitespace |
| `JsText.TrimFramed` | App.tsx:168 | What `trim` keeps is the text with exactly a whitespace prefix and a whitespace suffix removed |
| `JsText.TrimEmptyIffBlank` | App.tsx:168 | The trimmed text is empty exactly when the text is all whitespace |
| `Host.OnTranscription` | App.tsx:166-178 | A final with visible text appends one message with its role and untrimmed text. Any final clears only its role's pending line. A non-final replaces that line and adds no message |
| `Host.BlankFinalAddsNothing` | App.tsx:167-173 | A final that is empty or all whitespace adds no message |
| `Host.HandleEffectAppends` | App.tsx:166-178 | One callback appends the single message of a final transcription that is not blank, and otherwise appends nothing |
| `Host.DeliverMessages` | App.tsx:166-178 | A run of callbacks only appends, and appends one message per visible final transcription, in order |
| `Host.FinalMessagesVisible` | App.tsx:168-173 | Every message the callbacks add has text that is not blank and carries the current time |
| `Host.ClientInput` | App.tsx:155-186 | Any client input keeps the earlier messages. Every message it adds carries visible text and the current time, so blank finals from the client never become messages |
| `Host.HandleEffect` | App.tsx:155-183 | `onOpen` marks the host connected and sends the greeting. `onClose` falls back only while the ref is set, and `onError` always falls back. State changes are mirrored, and transcriptions go to the reducer |
| `Host.OpenSendsGreeting` | App.tsx:156-159 | Opening an idle, live client logs the open, then the greeting, and no state change, and marks the host connected |
| `Host.GreetingEchoIgnored` | App.tsx:156-159 | Nothing the greeting send emits is something the host reacts to |
| `Host.Fallback` | App.tsx:49-64 | The fallback detaches and disconnects the client. It then leaves status disconnected, text mode, the given reason shown and both volumes at 0. Nothing else in the host state changes |
| `Host.FallbackEchoIgnored` | App.tsx:160-163 | The callbacks of the disconnect a fallback issues find the ref cleared, so they change nothing and the fallback does not re-enter |
| `Host.LeaveChat` | App.tsx:189-201 | Leaving the chat disconnects the attached client. It returns to the selection screen with no stage, interaction, messages, error or pending lines. Status and voice state are untouched, so the fallback did not run |
| `Host.DeliverEchoes` | App.tsx:189-194 | The client's callbacks during the host's own disconnect leave the host and the client exactly as they are |
| `Host.KeylessStepCreatesNoClient` | App.tsx:144-150 | From a host with no client, an input other than a voice start with a key creates none |
| `Host.KeylessRunCreatesNoClient` | App.tsx:144-150 | From a host with no client, no run of inputs whose voice starts all lack a key ever creates a client |
| `Host.AppRun` | App.tsx:69 | No run of host inputs takes the quote index out of range |
| `Host.InitialHost` | App.tsx:15-27 | The first render is the selection screen with nothing chosen, disconnected and idle, no error, an empty conversation and input, no pending line and the first quote |
| `Host.StartApp` | App.tsx:15-27 | The program starts from the initial host with no client created and the ref empty |
| `Host.QuoteInRangeFromStart` | App.tsx:15-27 | From the program's start, no run of host inputs takes the quote index out of the five quotes |
| `Host.KeylessFromStart` | App.tsx:144-150 | From the program's start, inputs whose voice starts all lack a key never create a client |
| `Host.ConnectVoice` | App.tsx:144-153 | Without a key, the status is an error with the configuration message and no client is created. With a key, the host is connecting with no error and a fresh client attached |
| `Host.SendMessage` | App.tsx:203-211 | A blank input, or one sent while a request is in flight, is ignored. Otherwise exactly one user message with the trimmed text is appended, the input is cleared and a request starts |
| `Host.SendMessageTrimmed` | App.tsx:205-209 | A blank input sends nothing. Otherwise the one message appended is visible text that sits in the input between a whitespace prefix and a whitespace suffix |
| `Host.SendOncePerReply` | App.tsx:205-210 | Once a send has gone out, a second send before the reply appends nothing, whatever was typed in between |
| `Host.LateFailureShowsError` | App.tsx:180-182 | As written, a connect that fails after the user left shows the connection error on the selection screen and switches to text |
| `Host.LateOutcomeIgnored` | App.tsx:180-189 | With the corrected `Connect`, any late connect outcome leaves the host exactly as the user left it |
| `Host.ReceiveReply` | App.tsx:212-219 | An answer appends one model message and a failure shows the apology; either way the request ends. Nothing else in the host state changes |
| `Host.ShowTime` | App.tsx:462-463 | The first message always shows the time |
| `Host.ShowTimeLocal` | App.tsx:462-463 | Whether a message shows the time depends only on it and the messages before it; later messages never change it |
| `Host.ShowTimeAppend` | App.tsx:462-463 | A new message never moves an earlier separator. It gets one exactly when it is the first message or comes more than 180000 ms after the previous one |
| `Host.Separators` | App.tsx:461-466 | The separator positions, in increasing order, are exactly the messages that show the time, the first included |
| `Host.RotateQuote` | App.tsx:66-73 | On the selection screen, a tick advances the quote index by one modulo 5. Elsewhere nothing changes |
| `Host.RotateQuoteTimesWraps` | App.tsx:68-70 | n ticks on the selection screen advance the index by n modulo 5 |
| `Host.AppStep` | App.tsx:69 | No host input takes the quote index out of range |
| `Host.HangUpVoice` | App.tsx:446-449 | The hang-up button is only on screen while connected. Pressing it detaches and disconnects the client and switches to text mode with "Voice session ended." shown; messages are kept |
| `Host.HangUpNotOverwritten` | App.tsx:446-449 | The close the client reports after a hang-up finds the ref cleared, so the hang-up message stays |

## Notes on the code

Three behaviours of the code are easy to misread. The model keeps each of them.

- **Quantisation.** `createBlob` scales by 32767 and truncates (services/liveClient.ts:217). `decodeAudioData` divides by 32768 (line 283). So a sample can come back almost two steps of 1/32768 away.
  - `Pcm.EncodeDecodeError` proves the two-step bound.
  - `Pcm.EncodeDecodeErrorExceedsOneStep` gives a sample that misses a one-step bound.
- **Barge-in.** A barge-in sets the cursor to 0 (services/liveClient.ts:127), not to the current time. The next chunk still starts at once, because `playAudio` takes the `max` with the clock (line 258). `LiveClient.BargeInRestartsNow` states this.
- **After closing.** `onended` (services/liveClient.ts:264-269) has no closing check. So the last active source ending after the disconnect can still report idle.
  - `LiveClient.EndedAfterCloseReportsIdle` states this case.
  - With the corrected `Connect`, `LiveClient.Step` and `LiveClient.Run` show it is the only way a closing client still reports anything.
  - As written, a connect that completes after the disconnect is a second way (see Findings): `LiveClient.LateSetupNeverClosed` and `LiveClient.LateFailureReported`.

## Findings

| source | as written | input that shows it | evidently intended | confidence | as-written member | corrected member |
|---|---|---|---|---|---|---|
| services/liveClient.ts:49-79 | `connect` reads `isClosing` only on entry. A `disconnect` during its awaits finds no session promise. Line 79 then stores one that no later `disconnect` closes, since those return at line 183 | `connectVoice`, then leaving the chat while `getUserMedia` is pending, then the setup completes | A setup that completes after a disconnect is dropped, so a closing client never holds a session | not executed | `LiveClient.ConnectAsWritten`, `LiveClient.LateSetupNeverClosed` | `LiveClient.Connect`, `LiveClient.ClosedNeverReconnects` |
| services/liveClient.ts:169-172 | The `catch` calls `onError` with no closing check. The host's `onError` falls back whether or not its ref is set (App.tsx:180-182) | `connectVoice`, then leaving the chat, then the microphone permission is denied | A failure after the user left is not reported | not executed | `LiveClient.LateFailureReported`, `Host.LateFailureShowsError` | `LiveClient.Connect`, `Host.LateOutcomeIgnored` |

## Left out

- **Asynchronous timing.**
  - Each input is one atomic step: promise resolution, `await` points and the SDK's callback timing are not modelled.
  - The `sessionPromise?.then` sends happen within the step that issues them, guarded by the same closing check.
  - `connect` is a single `ConnectDone` input, taken when its body completes. Its entry check always passes, since the host calls it on a fresh client.
- **The audio graph.** Audio contexts, microphone capture and node wiring are outside the model. The current time of the output clock is a parameter of each message, and a source is only an id.
- **Stopping sources.** A source is assumed not to throw on `stop()`, which the source ignores anyway. The `onended` of a stopped source arrives as an ordinary `Ended` input.
- **The volume meter.** `startVolumeMonitoring` and `onVolume` depend on analyser FFT data, so only the fallback's reset of the volumes is modelled.
- **Logging and rendering.** `console` logging and the `Error` objects passed to `onError` are left out; only their message text is kept.
- **Message metadata.** `Host.ClientInput` and `Host.DeliverMessages` do not model message ids, the `language` field or `Date` objects. Timestamps are integer milliseconds supplied with each input.
- **Host pieces.** `silenceTimer`, `initializeGemini`, the chat service call, `selectStage` and `startInteraction` are left out. The text-chat request is an input carrying its answer or its failure.
- **One client.** The host keeps only its latest client. A second `connectVoice` while an earlier client still plays is not modelled.
- **Other files.**
  - `services/geminiService.ts`, the components, `constants.ts` (except the five quotes) and all markup are not part of this model.
  - `types.ts` appears only as the host's datatypes.
- **Other `createBuffer` limits.** `Pcm.DecodeAudioData` models only the shape limits. The user agent's further limits on buffer size are not modelled.
- `LiveClient.Connect` reads the closing flag again when `connect` completes, which the code does not do. The model uses this corrected reading; `LiveClient.ConnectAsWritten` is the code as written, and Findings says why.
- `Pcm.Pack`, `Pcm.Unpack`: the bytes are little-endian. The code's typed-array views (services/liveClient.ts:219 and 277) use the platform's byte order, which the model fixes.
- `LiveClient.Schedule`: the cursor is exact real arithmetic. The code's `nextStartTime += audioBuffer.duration` (services/liveClient.ts:261) rounds in double precision, so `LiveClient.BackToBack` holds only up to that rounding.

=== FILE: base64.dfy ===
/** The transport encoding of audio payloads: the browser's `btoa` and `atob`
    over Latin-1 "binary strings", which are the base64 encoding of section 4
    of RFC 4648 and the forgiving-base64 decode of the WHATWG Infra standard. */
module Base64 {
  import opened Results

  type byte = x: int | 0 <= x < 0x100
  type sextet = x: int | 0 <= x < 64

  // ---------------------------------------------------------------------
  // The alphabet of RFC 4648 section 4, table 1

  predicate IsAlphabetChar(c: char) {
    || ('A' <= c <= 'Z') || ('a' <= c <= 'z') || ('0' <= c <= '9')
    || c == '+' || c == '/'
  }

  /** The value a base64 character stands for. */
  function IndexOf(c: char): (i: sextet)
    requires IsAlphabetChar(c)
  {
    if 'A' <= c <= 'Z' then c as int - 'A' as int
    else if 'a' <= c <= 'z' then c as int - 'a' as int + 26
    else if '0' <= c <= '9' then c as int - '0' as int + 52
    else if c == '+' then 62
    else 63
  }

  /** The character that encodes a 6-bit value; `IndexOf` inverts it. */
  function CharOf(i: sextet): (c: char)
    ensures IsAlphabetChar(c) && IndexOf(c) == i
  {
    if i < 26 then (i + 'A' as int) as char
    else if i < 52 then (i - 26 + 'a' as int) as char
    else if i < 62 then (i - 52 + '0' as int) as char
    else if i == 62 then '+'
    else '/'
  }

  // ---------------------------------------------------------------------
  // Encoding: groups of three bytes become four sextets

  /** The sextets of `b` without padding: four per whole group of three
      bytes, then two for a trailing single byte or three for a trailing
      pair, the unused low bits being zero. */
  function Sextets(b: seq<byte>): (r: seq<sextet>)
    ensures |r| % 4 == Tail(|b|)
  {
    if |b| == 0 then []
    else if |b| == 1 then [First(b[0]), Second(b[0], 0)]
    else if |b| == 2 then [First(b[0]), Second(b[0], b[1]), Third(b[1], 0)]
    else [First(b[0]), Second(b[0], b[1]), Third(b[1], b[2]), Fourth(b[2])] + Sextets(b[3..])
  }

  /** The four sextets of a group of three bytes `x y z`: the top six bits
      of `x`; the low two of `x` and the top four of `y`; the low four of
      `y` and the top two of `z`; the low six of `z`. A missing byte counts
      as 0. */
  function First(x: byte): sextet { x / 4 }
  function Second(x: byte, y: byte): sextet { (x % 4) * 16 + y / 16 }
  function Third(y: byte, z: byte): sextet { (y % 16) * 4 + z / 64 }
  function Fourth(z: byte): sextet { z % 64 }

  /** How many sextets the last, partial group of `n` bytes gives: none,
      two or three. */
  function Tail(n: nat): nat {
    if n % 3 == 0 then 0 else n % 3 + 1
  }

  /** Exactly four sextets per whole group of three bytes, then the tail. */
  lemma {:induction false} SextetsLength(b: seq<byte>)
    ensures |Sextets(b)| == 4 * (|b| / 3) + Tail(|b|)
    decreases |b|
  {
    if |b| >= 3 {
      SextetsLength(b[3..]);
      assert |b| / 3 == (|b| - 3) / 3 + 1;
    }
  }

  /** The `=` characters that fill the last quantum up to four characters. */
  function Padding(n: nat): (p: string)
    ensures (Tail(n) + |p|) % 4 == 0
    ensures forall i :: 0 <= i < |p| ==> p[i] == '='
  {
    if n % 3 == 1 then "==" else if n % 3 == 2 then "=" else ""
  }

  function Chars(xs: seq<sextet>): (s: string)
    ensures |s| == |xs|
    ensures forall i :: 0 <= i < |xs| ==> s[i] == CharOf(xs[i])
  {
    seq(|xs|, i requires 0 <= i < |xs| => CharOf(xs[i]))
  }

  function Indices(s: string): (xs: seq<sextet>)
    requires forall i :: 0 <= i < |s| ==> IsAlphabetChar(s[i])
    ensures |xs| == |s|
    ensures forall i :: 0 <= i < |s| ==> xs[i] == IndexOf(s[i])
  {
    seq(|s|, i requires 0 <= i < |s| => IndexOf(s[i]))
  }

  /** The padded base64 text of a byte sequence. */
  function EncodeBytes(b: seq<byte>): (s: string)
    ensures |s| % 4 == 0
  {
    Chars(Sextets(b)) + Padding(|b|)
  }

  /** Four characters for every started group of three bytes. */
  lemma EncodedLength(b: seq<byte>)
    ensures |EncodeBytes(b)| == 4 * ((|b| + 2) / 3)
  {
    SextetsLength(b);
    var q := |b| / 3;
    assert |b| == 3 * q + |b| % 3;
    if |b| % 3 == 0 {
      assert (|b| + 2) / 3 == q;
    } else {
      assert (|b| + 2) / 3 == q + 1;
    }
  }

  // ---------------------------------------------------------------------
  // Binary strings: one character per byte, as `String.fromCharCode` makes

  predicate IsBinaryString(s: string) {
    forall i :: 0 <= i < |s| ==> s[i] as int < 0x100
  }

  /** The binary string whose character codes are `b`. */
  function Latin1(b: seq<byte>): (s: string)
    ensures |s| == |b| && IsBinaryString(s)
    ensures forall i :: 0 <= i < |b| ==> s[i] as int == b[i]
  {
    seq(|b|, i requires 0 <= i < |b| => b[i] as char)
  }

  /** The character codes of a binary string (`charCodeAt` per index). */
  function Codes(s: string): (b: seq<byte>)
    requires IsBinaryString(s)
    ensures |b| == |s|
    ensures forall i :: 0 <= i < |s| ==> b[i] == s[i] as int
  {
    seq(|s|, i requires 0 <= i < |s| => s[i] as int)
  }

  /** `btoa`: a string with a character above U+00FF is refused with an
      `InvalidCharacterError`; any other is encoded as the bytes it spells. */
  function Btoa(s: string): (r: Result<string>)
    ensures r.Ok? <==> IsBinaryString(s)
    ensures r.Ok? ==> r.value == EncodeBytes(Codes(s))
  {
    if IsBinaryString(s) then Ok(EncodeBytes(Codes(s)))
    else Err("InvalidCharacterError")
  }

  // ---------------------------------------------------------------------
  // Forgiving-base64 decode (what `atob` runs)

  /** The ASCII whitespace of the Infra standard: TAB, LF, FF, CR, SPACE. */
  predicate IsAsciiWhitespace(c: char) {
    c == '\t' || c == '\n' || c == '\U{000C}' || c == '\r' || c == ' '
  }

  function RemoveWhitespace(s: string): (r: string)
    ensures |r| <= |s|
    ensures forall i :: 0 <= i < |r| ==> !IsAsciiWhitespace(r[i])
  {
    if |s| == 0 then []
    else if IsAsciiWhitespace(s[0]) then RemoveWhitespace(s[1..])
    else [s[0]] + RemoveWhitespace(s[1..])
  }

  /** Drops one or two trailing `=` when the length is a multiple of four. */
  function StripPadding(s: string): (r: string)
    ensures |s| - 2 <= |r| <= |s| && r == s[..|r|]
  {
    if |s| % 4 != 0 then s
    else if |s| >= 2 && s[|s| - 2..] == "==" then s[..|s| - 2]
    else if |s| >= 1 && s[|s| - 1] == '=' then s[..|s| - 1]
    else s
  }

  /** The bytes spelt by unpadded sextets; a trailing two sextets give one
      byte and a trailing three give two, their leftover bits dropped. */
  function BytesOf(xs: seq<sextet>): (b: seq<byte>)
    requires |xs| % 4 != 1
  {
    if |xs| == 0 then []
    else if |xs| == 2 then [Top(xs[0], xs[1])]
    else if |xs| == 3 then [Top(xs[0], xs[1]), Middle(xs[1], xs[2])]
    else [Top(xs[0], xs[1]), Middle(xs[1], xs[2]), Bottom(xs[2], xs[3])] + BytesOf(xs[4..])
  }

  /** The three bytes of four sextets `a b c d`, the inverse grouping of
      `First` to `Fourth`. */
  function Top(a: sextet, b: sextet): byte { a * 4 + b / 16 }
  function Middle(b: sextet, c: sextet): byte { (b % 16) * 16 + c / 4 }
  function Bottom(c: sextet, d: sextet): byte { (c % 4) * 64 + d }

  /** `atob`: the binary string decoded from base64 text, or the
      `InvalidCharacterError` it throws. */
  function Atob(s: string): (r: Result<string>)
    ensures r.Ok? ==> IsBinaryString(r.value)
    ensures |RemoveWhitespace(s)| % 4 == 1 ==> r.Err?
    ensures (exists i :: 0 <= i < |s| && !IsAsciiWhitespace(s[i]) && !IsAlphabetChar(s[i]) && s[i] != '=') ==> r.Err?
  {
    var t := RemoveWhitespace(s);
    var u := StripPadding(t);
    if |u| % 4 == 1 then Err("InvalidCharacterError")
    else if exists i :: 0 <= i < |u| && !IsAlphabetChar(u[i]) then Err("InvalidCharacterError")
    else
      var r := Latin1(BytesOf(Indices(u)));
      RejectsStrangers(s);
      Ok(r)
  }

  /** A character that is neither whitespace, nor in the alphabet, nor `=`
      survives into the text whose characters `Atob` checks. */
  lemma {:induction false} RejectsStrangers(s: string)
    requires forall i :: 0 <= i < |StripPadding(RemoveWhitespace(s))| ==> IsAlphabetChar(StripPadding(RemoveWhitespace(s))[i])
    ensures forall i :: 0 <= i < |s| ==> IsAsciiWhitespace(s[i]) || IsAlphabetChar(s[i]) || s[i] == '='
  {
    var t := RemoveWhitespace(s);
    var u := StripPadding(t);
    forall i | 0 <= i < |s| && !IsAsciiWhitespace(s[i]) && !IsAlphabetChar(s[i])
      ensures s[i] == '='
    {
      var j := SurvivesWhitespace(s, i);
      if j >= |u| {
        assert t[j] == '=' by {
          if |t| >= 2 && t[|t| - 2..] == "==" {
            assert t[|t| - 2..][j - (|t| - 2)] == t[j];
          }
        }
      }
    }
  }

  /** Where a non-whitespace character of `s` lands after the removal. */
  lemma {:induction false} SurvivesWhitespace(s: string, i: nat) returns (j: nat)
    requires i < |s| && !IsAsciiWhitespace(s[i])
    ensures j < |RemoveWhitespace(s)| && RemoveWhitespace(s)[j] == s[i]
    decreases i
  {
    if i == 0 {
      j := 0;
    } else {
      var k := SurvivesWhitespace(s[1..], i - 1);
      j := if IsAsciiWhitespace(s[0]) then k else k + 1;
    }
  }

  // ---------------------------------------------------------------------
  // Round trip

  /** Four sextets cut from three bytes spell the same three bytes. */
  lemma GroupRoundTrip(x: byte, y: byte, z: byte)
    ensures Top(First(x), Second(x, y)) == x
    ensures Middle(Second(x, y), Third(y, z)) == y
    ensures Bottom(Third(y, z), Fourth(z)) == z
  {
  }

  lemma OneByteRoundTrip(x: byte)
    ensures BytesOf(Sextets([x])) == [x]
  {
    var xs := Sextets([x]);
    assert xs == [First(x), Second(x, 0)];
    assert BytesOf(xs) == [Top(xs[0], xs[1])];
    GroupRoundTrip(x, 0, 0);
  }

  lemma TwoBytesRoundTrip(x: byte, y: byte)
    ensures BytesOf(Sextets([x, y])) == [x, y]
  {
    var xs := Sextets([x, y]);
    assert xs == [First(x), Second(x, y), Third(y, 0)];
    assert BytesOf(xs) == [Top(xs[0], xs[1]), Middle(xs[1], xs[2])];
    GroupRoundTrip(x, y, 0);
  }

  /** Regrouping the sextets of a byte string gives the bytes back. */
  lemma {:induction false} BytesOfSextets(b: seq<byte>)
    ensures BytesOf(Sextets(b)) == b
    decreases |b|
  {
    if |b| == 1 {
      assert b == [b[0]];
      OneByteRoundTrip(b[0]);
    } else if |b| == 2 {
      assert b == [b[0], b[1]];
      TwoBytesRoundTrip(b[0], b[1]);
    } else if |b| >= 3 {
      var xs := Sextets(b);
      var rest := Sextets(b[3..]);
      assert xs[4..] == rest;
      BytesOfSextets(b[3..]);
      GroupRoundTrip(b[0], b[1], b[2]);
      assert BytesOf(xs) == [b[0], b[1], b[2]] + BytesOf(rest);
      assert b == [b[0], b[1], b[2]] + b[3..];
    }
  }

  lemma {:induction false} RemoveWhitespaceIdentity(s: string)
    requires forall i :: 0 <= i < |s| ==> !IsAsciiWhitespace(s[i])
    ensures RemoveWhitespace(s) == s
    decreases |s|
  {
    if |s| > 0 {
      RemoveWhitespaceIdentity(s[1..]);
      assert s == [s[0]] + s[1..];
    }
  }

  lemma StripPaddingOfEncoding(b: seq<byte>)
    ensures StripPadding(EncodeBytes(b)) == Chars(Sextets(b))
  {
    var c := Chars(Sextets(b));
    var p := Padding(|b|);
    assert c + p == EncodeBytes(b);
    assert p == "==" || p == "=" || p == "";
    forall i | 0 <= i < |c|
      ensures c[i] != '='
    {
      assert IsAlphabetChar(CharOf(Sextets(b)[i]));
    }
    StripPaddingOfPadded(c, p);
  }

  /** Padding after characters that are never '=' is exactly what
      `StripPadding` removes. */
  lemma StripPaddingOfPadded(c: string, p: string)
    requires forall i :: 0 <= i < |c| ==> c[i] != '='
    requires p == "==" || p == "=" || p == ""
    requires |c + p| % 4 == 0
    ensures StripPadding(c + p) == c
  {
    var s := c + p;
    if p == "==" {
      assert s[|s| - 2..] == p;
      assert s[..|s| - 2] == c;
    } else if p == "=" {
      assert s[|s| - 2] == c[|c| - 1];
      assert s[..|s| - 1] == c;
    } else {
      assert s == c;
      if |s| >= 1 {
        assert s[|s| - 1] == c[|c| - 1];
      }
    }
  }

  lemma IndicesOfChars(xs: seq<sextet>)
    ensures Indices(Chars(xs)) == xs
  {
  }

  lemma LatinCodes(b: seq<byte>)
    ensures Codes(Latin1(b)) == b
  {
  }

  lemma CodesLatin(s: string)
    requires IsBinaryString(s)
    ensures Latin1(Codes(s)) == s
  {
  }

  /** `atob(btoa(s)) == s` for every binary string, the empty one included. */
  lemma {:induction false} AtobBtoa(s: string)
    requires IsBinaryString(s)
    ensures Btoa(s).Ok? && Atob(Btoa(s).value) == Ok(s)
  {
    var b := Codes(s);
    var e := EncodeBytes(b);
    forall i | 0 <= i < |e|
      ensures !IsAsciiWhitespace(e[i])
    {
      if i >= |Sextets(b)| {
        assert e[i] == Padding(|b|)[i - |Sextets(b)|];
      }
    }
    RemoveWhitespaceIdentity(e);
    StripPaddingOfEncoding(b);
    var u := Chars(Sextets(b));
    BytesOfSextets(b);
    IndicesOfChars(Sextets(b));
    assert Atob(e) == Ok(Latin1(b));
    CodesLatin(s);
  }
}

=== FILE: host.dfy ===
/** The host component (`App`): the part of its state the session client's
    callbacks touch, the teardown paths, the text-chat send guard, the
    timestamp separators and the quote carousel. An `App` pairs the host's
    state with the one session client it created, and a flag for whether
    its ref still points at that client. */
module Host {
  import opened Results
  import opened JsText
  import opened LiveClient

  datatype LiveStatus = Disconnected | Connecting | Connected | Errored
  datatype AppMode = Selection | Segmentation | Chat
  datatype InteractionType = Voice | Text
  datatype UserStage = Fresher | Experienced | Gap | Transition

  /** A chat message; `timestamp` is in milliseconds since the epoch. */
  datatype ChatMessage = ChatMessage(role: Role, text: string, timestamp: int)

  datatype Volumes = Volumes(input: real, output: real)

  datatype HostState = HostState(
    mode: AppMode,
    stage: Option<UserStage>,
    interaction: Option<InteractionType>,
    status: LiveStatus,
    voiceState: TurnState,
    volumes: Volumes,
    errorMsg: Option<string>,
    messages: seq<ChatMessage>,
    inputText: string,
    isProcessingText: bool,
    pendingUser: string,
    pendingModel: string,
    quoteIndex: nat)

  /** `client` is the last client created; `attached` says whether
      `liveClientRef.current` still points at it. */
  datatype App = App(host: HostState, client: Option<Session>, attached: bool, greeting: string)

  const QuoteCount: nat := 5
  const SeparatorGap: int := 180000
  const ConfigErrorMessage: string := "Configuration error. Please check API settings."
  const ConnectionIssueMessage: string := "Connection issue. Switching to text mode."
  const SessionCompletedMessage: string := "Voice session completed."
  const VoiceEndedMessage: string := "Voice session ended."
  const ReplyErrorMessage: string := "I’m sorry, I encountered an issue. Please try again."

  /** The host as first rendered: on the selection screen, with nothing
      chosen, no voice session, no error and an empty conversation. */
  function InitialHost(): (h: HostState)
    ensures h.mode == Selection && h.stage.None? && h.interaction.None?
    ensures h.status == Disconnected && h.voiceState == Idle && h.errorMsg.None?
    ensures h.messages == [] && h.inputText == "" && !h.isProcessingText
    ensures h.pendingUser == "" && h.pendingModel == "" && h.quoteIndex == 0
  {
    HostState(Selection, None, None, Disconnected, Idle, Volumes(0.0, 0.0), None, [], "", false, "", "", 0)
  }

  predicate Attached(app: App) {
    app.attached && app.client.Some?
  }

  // ---------------------------------------------------------------------
  // onTranscription

  /** A final transcription with visible text becomes one message carrying
      the untrimmed text; any final clears its role's pending line; a
      non-final one replaces that line. */
  function OnTranscription(h: HostState, text: string, role: Role, isFinal: bool, now: int): (r: HostState)
    ensures isFinal && Trim(text) != [] ==> r.messages == h.messages + [ChatMessage(role, text, now)]
    ensures !(isFinal && Trim(text) != []) ==> r.messages == h.messages
    ensures r.pendingUser == (if role == User then (if isFinal then "" else text) else h.pendingUser)
    ensures r.pendingModel == (if role == Model then (if isFinal then "" else text) else h.pendingModel)
    ensures r.(messages := h.messages, pendingUser := h.pendingUser, pendingModel := h.pendingModel) == h
  {
    var h1 := if isFinal && Trim(text) != [] then h.(messages := h.messages + [ChatMessage(role, text, now)]) else h;
    var line := if isFinal then "" else text;
    match role
    case User => h1.(pendingUser := line)
    case Model => h1.(pendingModel := line)
  }

  /** A blank final (empty, or only whitespace) adds no message. */
  lemma BlankFinalAddsNothing(h: HostState, text: string, role: Role, now: int)
    requires IsBlank(text)
    ensures OnTranscription(h, text, role, true, now).messages == h.messages
  {
    TrimEmptyIffBlank(text);
  }

  // ---------------------------------------------------------------------
  // Fallback to text mode

  /** `handleVoiceFallback`: the ref is cleared before the client is told
      to disconnect, then the host moves to text mode with `reason` shown. */
  function Fallback(app: App, reason: string): (r: App)
    ensures !r.attached
    ensures r.host.status == Disconnected && r.host.interaction == Some(Text)
    ensures r.host.errorMsg == Some(reason) && r.host.volumes == Volumes(0.0, 0.0)
    ensures r.client.Some? <==> app.client.Some?
    ensures Attached(app) ==> r.client == Some(DisconnectSession(app.client.value))
    ensures !Attached(app) ==> r.client == app.client
    ensures r.host.messages == app.host.messages && r.host.mode == app.host.mode
    ensures r.host.(status := app.host.status, interaction := app.host.interaction,
                    errorMsg := app.host.errorMsg, volumes := app.host.volumes) == app.host
    ensures r.greeting == app.greeting
  {
    var app1 := if Attached(app) then app.(attached := false, client := Some(DisconnectSession(app.client.value))) else app.(attached := false);
    app1.(host := app1.host.(status := Disconnected, interaction := Some(Text), errorMsg := Some(reason), volumes := Volumes(0.0, 0.0)))
  }

  // ---------------------------------------------------------------------
  // The callbacks

  /** The host's reaction to one callback of its client. `onOpen` sends the
      greeting through the client; `onClose` falls back only while the ref
      is set; `onError` always falls back. */
  function HandleEffect(app: App, e: Effect, now: int): (r: App)
    ensures r.client.Some? <==> app.client.Some?
    ensures r.greeting == app.greeting
    ensures e.Transcribed? ==> r.host == OnTranscription(app.host, e.text, e.role, e.isFinal, now)
    ensures !e.Transcribed? ==> r.host.messages == app.host.messages
    ensures r.host.quoteIndex == app.host.quoteIndex
    ensures e.Opened? ==>
      && r.host == app.host.(status := Connected)
      && r.client == (if app.client.Some? then Some(SendTextTo(app.client.value, app.greeting)) else None)
    ensures e.StateChanged? ==> r.host == app.host.(voiceState := e.state) && r.client == app.client
    ensures e.Closed? && !Attached(app) ==> r == app
    ensures e.Closed? && Attached(app) ==> r == Fallback(app, SessionCompletedMessage)
    ensures e.Failed? ==> r == Fallback(app, ConnectionIssueMessage)
  {
    match e
    case Opened =>
      var app1 := app.(host := app.host.(status := Connected));
      if app1.client.Some? then app1.(client := Some(SendTextTo(app1.client.value, app1.greeting))) else app1
    case Closed => if Attached(app) then Fallback(app, SessionCompletedMessage) else app
    case StateChanged(st) => app.(host := app.host.(voiceState := st))
    case Transcribed(text, role, isFinal) => app.(host := OnTranscription(app.host, text, role, isFinal, now))
    case Failed(_) => Fallback(app, ConnectionIssueMessage)
    case _ => app
  }

  /** The host's callbacks, run in the order the client made them. */
  function Deliver(app: App, es: seq<Effect>, now: int): (r: App)
    ensures r.client.Some? <==> app.client.Some?
    ensures r.host.quoteIndex == app.host.quoteIndex
    ensures r.greeting == app.greeting
    decreases |es|
  {
    if es == [] then app else Deliver(HandleEffect(app, es[0], now), es[1..], now)
  }

  /** The messages a run of callbacks adds: one per final transcription with
      visible text, in order. */
  function FinalMessages(es: seq<Effect>, now: int): seq<ChatMessage> {
    if es == [] then [] else Shown(es[0], now) + FinalMessages(es[1..], now)
  }

  /** The message one callback adds: a final transcription that is not blank. */
  function Shown(e: Effect, now: int): seq<ChatMessage> {
    if e.Transcribed? && e.isFinal && !IsBlank(e.text) then [ChatMessage(e.role, e.text, now)] else []
  }

  /** One callback appends exactly the message it shows. */
  lemma HandleEffectAppends(app: App, e: Effect, now: int)
    ensures HandleEffect(app, e, now).host.messages == app.host.messages + Shown(e, now)
  {
    if e.Transcribed? {
      TrimEmptyIffBlank(e.text);
    }
  }

  /** Every message the callbacks add carries visible text. */
  lemma {:induction false} FinalMessagesVisible(es: seq<Effect>, now: int)
    ensures forall i :: 0 <= i < |FinalMessages(es, now)| ==>
      !IsBlank(FinalMessages(es, now)[i].text) && FinalMessages(es, now)[i].timestamp == now
  {
    if es != [] {
      var head := Shown(es[0], now);
      var rest := FinalMessages(es[1..], now);
      FinalMessagesVisible(es[1..], now);
      assert FinalMessages(es, now) == head + rest;
      forall i | |head| <= i < |head + rest|
        ensures (head + rest)[i] == rest[i - |head|]
      {
      }
    }
  }

  /** Delivering callbacks only ever appends the messages the final
      transcriptions among them call for. */
  lemma {:induction false} DeliverMessages(app: App, es: seq<Effect>, now: int)
    ensures Deliver(app, es, now).host.messages == app.host.messages + FinalMessages(es, now)
    decreases |es|
  {
    if es != [] {
      var app1 := HandleEffect(app, es[0], now);
      HandleEffectAppends(app, es[0], now);
      DeliverMessages(app1, es[1..], now);
      AppendAssoc(app.host.messages, Shown(es[0], now), FinalMessages(es[1..], now));
    }
  }

  /** Appending is associative; stated once so that the message proofs
      need not rediscover it element by element. */
  lemma AppendAssoc<T>(a: seq<T>, b: seq<T>, c: seq<T>)
    ensures (a + b) + c == a + (b + c)
  {
  }

  /** `after` is `before` with messages appended, each with visible text
      and stamped with `clock`. */
  predicate AddsVisible(before: seq<ChatMessage>, after: seq<ChatMessage>, clock: int) {
    && |before| <= |after| && after[..|before|] == before
    && forall i :: |before| <= i < |after| ==> !IsBlank(after[i].text) && after[i].timestamp == clock
  }

  lemma DeliverAddsVisible(app: App, es: seq<Effect>, now: int)
    ensures AddsVisible(app.host.messages, Deliver(app, es, now).host.messages, now)
  {
    DeliverMessages(app, es, now);
    FinalMessagesVisible(es, now);
  }

  lemma AddsVisibleTrans(a: seq<ChatMessage>, b: seq<ChatMessage>, c: seq<ChatMessage>, clock: int)
    requires AddsVisible(a, b, clock) && AddsVisible(b, c, clock)
    ensures AddsVisible(a, c, clock)
  {
    assert c[..|a|] == c[..|b|][..|a|];
    forall i | |a| <= i < |b|
      ensures c[i] == b[i]
    {
      assert c[i] == c[..|b|][i];
    }
  }

  /** The callbacks the client makes from inside the `disconnect` that a
      fallback issues find the ref already cleared, so they change nothing:
      a fallback never re-enters itself. */
  lemma FallbackEchoIgnored(app: App, reason: string, now: int)
    requires Attached(app)
    ensures var r := Fallback(app, reason);
      forall e :: e in Emitted(app.client.value, r.client.value) ==> HandleEffect(r, e, now) == r
  {
    var r := Fallback(app, reason);
    var s := app.client.value;
    assert r.client.value == DisconnectSession(s) && !Attached(r);
    var es := Emitted(s, r.client.value);
    if s.isClosing {
      assert es == [];
    } else if s.connected {
      assert es == [Closed, TransportClosed];
    } else {
      assert es == [Closed];
    }
    assert HandleEffect(r, Closed, now) == r;
    assert HandleEffect(r, TransportClosed, now) == r;
  }

  /** The `sendText` in `onOpen` emits nothing the host reacts to. */
  lemma GreetingEchoIgnored(s: Session, text: string, app: App, now: int)
    ensures forall e :: e in Emitted(s, SendTextTo(s, text)) ==> HandleEffect(app, e, now) == app
  {
  }

  // ---------------------------------------------------------------------
  // Host inputs

  datatype AppEvent =
    /** `connectVoice(initialText)` with the configured key */
    | StartVoice(apiKey: Option<string>, initialText: string)
    /** An input of the client, with the wall clock in milliseconds. */
    | FromClient(e: Event, clock: int)
    /** The host's `disconnect` (leaving the chat). */
    | Leave
    | Type(text: string)
    /** `handleSendMessage` */
    | Send(clock: int)
    /** The chat service's answer to the last send. */
    | Reply(answer: Result<string>, clock: int)
    /** One tick of the five-second quote interval. */
    | Tick
    /** The hang-up button, shown only while connected. */
    | HangUp

  /** `connectVoice`: without a key the host reports a configuration error
      and creates no client; otherwise a fresh client is created and
      attached, to be connected by a later `ConnectDone`. */
  function ConnectVoice(app: App, apiKey: Option<string>, initialText: string): (r: App)
    ensures apiKey.None? || apiKey.value == "" ==>
      && r.host == app.host.(status := Errored, errorMsg := Some(ConfigErrorMessage))
      && r.client == app.client && r.attached == app.attached
    ensures apiKey.Some? && apiKey.value != "" ==>
      && r.host == app.host.(status := Connecting, errorMsg := None)
      && r.client == Some(NewSession()) && r.attached && r.greeting == initialText
  {
    if apiKey.None? || apiKey.value == "" then
      app.(host := app.host.(status := Errored, errorMsg := Some(ConfigErrorMessage)))
    else
      App(app.host.(status := Connecting, errorMsg := None), Some(NewSession()), true, initialText)
  }

  /** One client input and the callbacks it causes. `onopen` is the one
      handler that lets the host act in the middle: the host's `onOpen`
      (and the greeting it sends) runs before the client settles to idle. */
  function ClientInput(app: App, e: Event, clock: int): (r: App)
    ensures r.client.Some? <==> app.client.Some?
    ensures r.host.quoteIndex == app.host.quoteIndex
    ensures app.client.None? ==> r == app
    ensures AddsVisible(app.host.messages, r.host.messages, clock)
  {
    if app.client.None? then app
    else
      var c := app.client.value;
      match e
      case Open =>
        var c1 := AnnounceOpen(c);
        var app1 := Deliver(app.(client := Some(c1)), Emitted(c, c1), clock);
        DeliverAddsVisible(app.(client := Some(c1)), Emitted(c, c1), clock);
        var c2 := app1.client.value;
        var c3 := SettleOpen(c2);
        var r := Deliver(app1.(client := Some(c3)), Emitted(c2, c3), clock);
        DeliverAddsVisible(app1.(client := Some(c3)), Emitted(c2, c3), clock);
        AddsVisibleTrans(app.host.messages, app1.host.messages, r.host.messages, clock);
        r
      case _ =>
        var c1 := Step(c, e);
        DeliverAddsVisible(app.(client := Some(c1)), Emitted(c, c1), clock);
        Deliver(app.(client := Some(c1)), Emitted(c, c1), clock)
  }

  /** The host's `disconnect`: the ref is cleared before the client is
      told, so the client's `onClose` does not fall back; the chat is then
      reset. The connection status and the voice state are left as they
      were. */
  function LeaveChat(app: App): (r: App)
    ensures !r.attached
    ensures Attached(app) ==> r.client == Some(DisconnectSession(app.client.value))
    ensures !Attached(app) ==> r.client == app.client
    ensures r.host == app.host.(mode := Selection, interaction := None, stage := None, messages := [],
                               errorMsg := None, pendingUser := "", pendingModel := "")
  {
    var app1 :=
      if Attached(app) then
        var c := app.client.value;
        var d := DisconnectSession(c);
        var detached := app.(attached := false, client := Some(d));
        DeliverEchoes(detached, c, 0);
        Deliver(detached, Emitted(c, d), 0)
      else app.(attached := false);
    app1.(host := app1.host.(mode := Selection, interaction := None, stage := None, messages := [],
                             errorMsg := None, pendingUser := "", pendingModel := ""))
  }

  /** The callbacks of a disconnect made after the ref was cleared leave
      the host and the client exactly as they are. */
  lemma DeliverEchoes(detached: App, c: Session, clock: int)
    requires !detached.attached && detached.client == Some(DisconnectSession(c))
    ensures Deliver(detached, Emitted(c, DisconnectSession(c)), clock) == detached
  {
    var es := Emitted(c, DisconnectSession(c));
    if !c.isClosing {
      if c.connected {
        assert es == [Closed, TransportClosed];
        assert Deliver(detached, es, clock) == Deliver(detached, es[1..], clock);
      } else {
        assert es == [Closed];
      }
    }
  }

  /** As written, a connect that fails after the user left still reaches
      `onError`, which falls back whether or not the ref is set: the
      selection screen shows the connection error and the interaction
      switches to text. */
  lemma LateFailureShowsError(app: App, error: Option<string>, clock: int)
    requires Attached(app)
    ensures var left := LeaveChat(app);
      var c := left.client.value;
      var c1 := ConnectAsWritten(c, Threw(error));
      var r := Deliver(left.(client := Some(c1)), Emitted(c, c1), clock);
      r.host.mode == Selection && r.host.errorMsg == Some(ConnectionIssueMessage) && r.host.interaction == Some(Text)
  {
    var left := LeaveChat(app);
    var c := left.client.value;
    var c1 := ConnectAsWritten(c, Threw(error));
    var e := Failed(if error.Some? then error.value else ConnectErrorMessage);
    assert Emitted(c, c1) == [e];
    assert [e][1..] == [];
    assert Deliver(left.(client := Some(c1)), [e], clock) == HandleEffect(left.(client := Some(c1)), e, clock);
  }

  /** With the closing flag read again on completion, the same late
      outcome leaves the host as the user left it. */
  lemma LateOutcomeIgnored(app: App, outcome: ConnectOutcome, clock: int)
    requires Attached(app)
    ensures var left := LeaveChat(app);
      var c := left.client.value;
      var c1 := Connect(c, outcome);
      Deliver(left.(client := Some(c1)), Emitted(c, c1), clock) == left
  {
    var left := LeaveChat(app);
    var c := left.client.value;
    assert c.isClosing;
    assert Emitted(c, Connect(c, outcome)) == [];
  }

  /** `handleSendMessage`'s first half: a blank input or a request in
      flight is ignored; otherwise the trimmed text becomes a user message,
      the input is cleared and a request starts. */
  function SendMessage(h: HostState, clock: int): (r: HostState)
    ensures Trim(h.inputText) == [] || h.isProcessingText ==> r == h
    ensures Trim(h.inputText) != [] && !h.isProcessingText ==>
      && r.messages == h.messages + [ChatMessage(User, Trim(h.inputText), clock)]
      && r.inputText == "" && r.isProcessingText
      && r.(messages := h.messages, inputText := h.inputText, isProcessingText := h.isProcessingText) == h
  {
    if Trim(h.inputText) == [] || h.isProcessingText then h
    else h.(inputText := "", messages := h.messages + [ChatMessage(User, Trim(h.inputText), clock)], isProcessingText := true)
  }

  /** What a send appends is the input without its surrounding
      whitespace: visible text, with nothing but whitespace around it in
      what was typed. A blank input sends nothing. */
  lemma SendMessageTrimmed(h: HostState, clock: int)
    ensures IsBlank(h.inputText) ==> SendMessage(h, clock) == h
    ensures !IsBlank(h.inputText) && !h.isProcessingText ==>
      var r := SendMessage(h, clock);
      && |r.messages| == |h.messages| + 1
      && !IsBlank(r.messages[|h.messages|].text)
      && exists k :: FramedBy(h.inputText, r.messages[|h.messages|].text, k)
  {
    TrimEmptyIffBlank(h.inputText);
    TrimFramed(h.inputText);
    var t := Trim(h.inputText);
    if t != [] {
      assert !IsJsWhitespace(t[0]);
    }
  }

  /** Until the reply arrives, a second send appends nothing, whatever was
      typed in between: one request, one user message. */
  lemma SendOncePerReply(h: HostState, typed: string, c1: int, c2: int)
    ensures var h1 := SendMessage(h, c1);
      h1 != h ==> SendMessage(h1.(inputText := typed), c2) == h1.(inputText := typed)
    ensures SendMessage(SendMessage(h, c1), c2) == SendMessage(h, c1)
  {
  }

  /** `handleSendMessage`'s second half: an answer becomes a model message,
      a failure shows an apology; either way the request is over. */
  function ReceiveReply(h: HostState, answer: Result<string>, clock: int): (r: HostState)
    ensures !r.isProcessingText
    ensures answer.Ok? ==> r.messages == h.messages + [ChatMessage(Model, answer.value, clock)] && r.errorMsg == h.errorMsg
    ensures answer.Err? ==> r.messages == h.messages && r.errorMsg == Some(ReplyErrorMessage)
    ensures r.(messages := h.messages, errorMsg := h.errorMsg, isProcessingText := h.isProcessingText) == h
  {
    match answer
    case Ok(text) => h.(messages := h.messages + [ChatMessage(Model, text, clock)], isProcessingText := false)
    case Err(_) => h.(errorMsg := Some(ReplyErrorMessage), isProcessingText := false)
  }

  /** The quote carousel advances only on the selection screen. */
  function RotateQuote(h: HostState): (r: HostState)
    ensures h.mode == Selection ==> r.quoteIndex == (h.quoteIndex + 1) % QuoteCount
    ensures h.mode != Selection ==> r == h
    ensures r.(quoteIndex := h.quoteIndex) == h
  {
    if h.mode == Selection then h.(quoteIndex := (h.quoteIndex + 1) % QuoteCount) else h
  }

  /** The host after one input; the quote index stays in range. */
  function AppStep(app: App, ev: AppEvent): (r: App)
    ensures app.host.quoteIndex < QuoteCount ==> r.host.quoteIndex < QuoteCount
  {
    match ev
    case StartVoice(apiKey, initialText) => ConnectVoice(app, apiKey, initialText)
    case FromClient(e, clock) => ClientInput(app, e, clock)
    case Leave => LeaveChat(app)
    case Type(text) => app.(host := app.host.(inputText := text))
    case Send(clock) => app.(host := SendMessage(app.host, clock))
    case Reply(answer, clock) => app.(host := ReceiveReply(app.host, answer, clock))
    case Tick => app.(host := RotateQuote(app.host))
    case HangUp => HangUpVoice(app)
  }

  /** The hang-up button: while connected it falls back to text mode with
      "Voice session ended."; otherwise it is not on screen. */
  function HangUpVoice(app: App): (r: App)
    ensures app.host.status != Connected ==> r == app
    ensures app.host.status == Connected ==>
      && !r.attached && r.host.status == Disconnected && r.host.interaction == Some(Text)
      && r.host.errorMsg == Some(VoiceEndedMessage) && r.host.messages == app.host.messages
    ensures Attached(app) && app.host.status == Connected ==>
      r.client == Some(DisconnectSession(app.client.value))
  {
    if app.host.status == Connected then Fallback(app, VoiceEndedMessage) else app
  }

  /** Hanging up tells the client to close, and the close it reports finds
      the ref cleared: the host ends up with the hang-up message, not the
      "session completed" one. */
  lemma HangUpNotOverwritten(app: App, now: int)
    requires Attached(app) && app.host.status == Connected
    ensures var r := HangUpVoice(app);
      Deliver(r, Emitted(app.client.value, r.client.value), now) == r
      && r.host.errorMsg == Some(VoiceEndedMessage)
  {
    var r := HangUpVoice(app);
    assert r == Fallback(app, VoiceEndedMessage);
    DeliverEchoes(r, app.client.value, now);
  }

  /** The host after a sequence of inputs. */
  function AppRun(app: App, evs: seq<AppEvent>): (r: App)
    ensures app.host.quoteIndex < QuoteCount ==> r.host.quoteIndex < QuoteCount
    decreases |evs|
  {
    if evs == [] then app else AppRun(AppStep(app, evs[0]), evs[1..])
  }

  /** An input that cannot create a client: anything but a voice start
      with a non-empty key. */
  predicate Keyless(ev: AppEvent) {
    ev.StartVoice? ==> ev.apiKey.None? || ev.apiKey.value == ""
  }

  lemma KeylessStepCreatesNoClient(app: App, ev: AppEvent)
    requires app.client.None? && Keyless(ev)
    ensures AppStep(app, ev).client.None?
  {
  }

  /** Without a key no input ever creates a client: the host stays out of
      voice mode however the inputs are ordered. */
  lemma {:induction false} KeylessRunCreatesNoClient(app: App, evs: seq<AppEvent>)
    requires app.client.None? && forall i :: 0 <= i < |evs| ==> Keyless(evs[i])
    ensures AppRun(app, evs).client.None?
    decreases |evs|
  {
    if evs != [] {
      KeylessStepCreatesNoClient(app, evs[0]);
      KeylessRunCreatesNoClient(AppStep(app, evs[0]), evs[1..]);
    }
  }

  /** The program's start: the initial host with no client created yet. */
  function StartApp(): (a: App)
    ensures a.host == InitialHost() && a.client.None? && !a.attached
  {
    App(InitialHost(), None, false, "")
  }

  /** From the program's start, no run of inputs takes the quote index out
      of the five quotes. */
  lemma QuoteInRangeFromStart(evs: seq<AppEvent>)
    ensures AppRun(StartApp(), evs).host.quoteIndex < QuoteCount
  {
    assert StartApp().host.quoteIndex == 0;
  }

  /** From the program's start, inputs whose voice starts all lack a key
      never create a client. */
  lemma KeylessFromStart(evs: seq<AppEvent>)
    requires forall i :: 0 <= i < |evs| ==> Keyless(evs[i])
    ensures AppRun(StartApp(), evs).client.None?
  {
    KeylessRunCreatesNoClient(StartApp(), evs);
  }

  /** The host's `onOpen` runs between the client's announcement and its
      settling: a connected, idle client reports the open, sends the
      greeting, and (being idle already) reports no state change. */
  lemma OpenSendsGreeting(app: App, clock: int)
    requires Attached(app)
    requires var c := app.client.value; !c.isClosing && c.connected && c.activeState == Idle
    ensures var r := ClientInput(app, Open, clock);
      && r.client.Some? && r.host.status == Connected
      && r.client.value.log == app.client.value.log + [Opened, TextSent(app.greeting)]
  {
    var c := app.client.value;
    var c1 := AnnounceOpen(c);
    var app1 := Deliver(app.(client := Some(c1)), Emitted(c, c1), clock);
    assert Emitted(c, c1) == [Opened];
    assert [Opened][1..] == [];
    assert app1 == HandleEffect(app.(client := Some(c1)), Opened, clock);
  }

  // ---------------------------------------------------------------------
  // Timestamp separators

  /** A separator with the time shows above the first message, and above
      any message sent more than three minutes after the one before it. */
  predicate ShowTime(ms: seq<ChatMessage>, i: nat)
    requires i < |ms|
    ensures i == 0 ==> ShowTime(ms, i)
  {
    i == 0 || ms[i].timestamp - ms[i - 1].timestamp > SeparatorGap
  }

  /** A message's separator depends only on it and the messages before it:
      later messages never change it. */
  lemma ShowTimeLocal(ms: seq<ChatMessage>, later: seq<ChatMessage>, i: nat)
    requires i < |ms|
    ensures ShowTime(ms + later, i) == ShowTime(ms, i)
  {
    assert (ms + later)[i] == ms[i];
    if i > 0 {
      assert (ms + later)[i - 1] == ms[i - 1];
    }
  }

  /** Adding a message never moves an earlier separator, and the new one
      gets a separator exactly when it is the first or comes after a gap of
      more than three minutes. */
  lemma ShowTimeAppend(ms: seq<ChatMessage>, m: ChatMessage)
    ensures forall i :: 0 <= i < |ms| ==> (ShowTime(ms + [m], i) <==> ShowTime(ms, i))
    ensures ShowTime(ms + [m], |ms|) <==> ms == [] || m.timestamp > ms[|ms| - 1].timestamp + SeparatorGap
  {
  }

  /** The positions that get a separator, in order. */
  method Separators(ms: seq<ChatMessage>) returns (idx: seq<nat>)
    ensures forall k: nat :: k in idx <==> k < |ms| && ShowTime(ms, k)
    ensures forall a, b :: 0 <= a < b < |idx| ==> idx[a] < idx[b]
    ensures ms != [] ==> |idx| >= 1 && idx[0] == 0
  {
    idx := [];
    var i := 0;
    while i < |ms|
      invariant 0 <= i <= |ms|
      invariant forall k: nat :: k in idx <==> k < i && ShowTime(ms, k)
      invariant forall a, b :: 0 <= a < b < |idx| ==> idx[a] < idx[b]
      invariant forall a :: 0 <= a < |idx| ==> idx[a] < i
      invariant i > 0 ==> |idx| >= 1 && idx[0] == 0
    {
      if ShowTime(ms, i) {
        idx := idx + [i];
      }
      i := i + 1;
    }
  }

  // ---------------------------------------------------------------------
  // The quote carousel

  /** `n` ticks of the interval. */
  function RotateQuoteTimes(h: HostState, n: nat): (r: HostState)
    ensures r.mode == h.mode
  {
    if n == 0 then h else RotateQuote(RotateQuoteTimes(h, n - 1))
  }

  /** On the selection screen `n` ticks advance the carousel by `n`
      places, wrapping around the five quotes. */
  lemma {:induction false} RotateQuoteTimesWraps(h: HostState, n: nat)
    requires h.mode == Selection && h.quoteIndex < QuoteCount
    ensures RotateQuoteTimes(h, n).quoteIndex == (h.quoteIndex + n) % QuoteCount
  {
    if n > 0 {
      var prev := RotateQuoteTimes(h, n - 1);
      RotateQuoteTimesWraps(h, n - 1);
      assert RotateQuoteTimes(h, n).quoteIndex == (prev.quoteIndex + 1) % QuoteCount;
      NextPlace(h.quoteIndex + n - 1);
    }
  }

  /** Advancing one place from `k`'s place is `k + 1`'s place. */
  lemma NextPlace(k: nat)
    ensures (k % QuoteCount + 1) % QuoteCount == (k + 1) % QuoteCount
  {
    var q := k / QuoteCount;
    assert k + 1 == QuoteCount * q + (k % QuoteCount + 1);
  }
}

=== FILE: jstext.dfy ===
/** The whitespace notion of ECMAScript's `String.prototype.trim`, used by the
    host to decide whether a transcription or a typed message is blank. */
module JsText {

  /** WhiteSpace and LineTerminator code points of ECMAScript (section 12.2
      and 12.3 of ECMA-262): TAB, LF, VT, FF, CR, SPACE, NBSP, the Zs
      category, LS, PS and the byte order mark. */
  predicate IsJsWhitespace(c: char) {
    var k := c as int;
    || k == 0x09 || k == 0x0A || k == 0x0B || k == 0x0C || k == 0x0D
    || k == 0x20 || k == 0xA0 || k == 0x1680
    || (0x2000 <= k <= 0x200A)
    || k == 0x2028 || k == 0x2029 || k == 0x202F || k == 0x205F
    || k == 0x3000 || k == 0xFEFF
  }

  /** Every character of `s` is whitespace (the empty string included). */
  predicate IsBlank(s: string) {
    forall i :: 0 <= i < |s| ==> IsJsWhitespace(s[i])
  }

  /** `s` without its leading whitespace. */
  function TrimStart(s: string): (r: string)
    ensures |r| <= |s| && r == s[|s| - |r|..]
    ensures IsBlank(s[..|s| - |r|])
    ensures r == [] || !IsJsWhitespace(r[0])
  {
    if |s| > 0 && IsJsWhitespace(s[0]) then
      var r := TrimStart(s[1..]);
      assert s[..|s| - |r|] == [s[0]] + s[1..][..|s[1..]| - |r|];
      r
    else s
  }

  /** `s` without its trailing whitespace. */
  function TrimEnd(s: string): (r: string)
    ensures |r| <= |s| && r == s[..|r|]
    ensures IsBlank(s[|r|..])
    ensures r == [] || !IsJsWhitespace(r[|r| - 1])
  {
    if |s| > 0 && IsJsWhitespace(s[|s| - 1]) then
      var r := TrimEnd(s[..|s| - 1]);
      assert s[..|s| - 1][..|r|] == s[..|r|];
      assert s[|r|..] == s[..|s| - 1][|r|..] + [s[|s| - 1]];
      r
    else s
  }

  /** `s` splits as blank `s[..k]`, then `r`, then a blank rest. */
  predicate FramedBy(s: string, r: string, k: int) {
    && 0 <= k <= |s| - |r|
    && r == s[k..k + |r|]
    && IsBlank(s[..k])
    && IsBlank(s[k + |r|..])
  }

  /** `String.prototype.trim`: whitespace removed from both ends. */
  function Trim(s: string): (r: string)
    ensures r == [] || (!IsJsWhitespace(r[0]) && !IsJsWhitespace(r[|r| - 1]))
  {
    var t := TrimStart(s);
    var r := TrimEnd(t);
    assert r == [] || r[0] == t[0];
    r
  }

  /** What `Trim` keeps sits between a blank prefix and a blank suffix of
      the text. */
  lemma TrimFramed(s: string)
    ensures exists k :: FramedBy(s, Trim(s), k)
  {
    var t := TrimStart(s);
    assert Trim(s) == TrimEnd(t);
    FramedByHalves(s, t, TrimEnd(t));
    assert FramedBy(s, Trim(s), |s| - |t|);
  }

  /** Blank leading text dropped by `t`, then blank trailing text dropped
      by `r`, frame `r` inside `s`. */
  lemma FramedByHalves(s: string, t: string, r: string)
    requires |t| <= |s| && t == s[|s| - |t|..] && IsBlank(s[..|s| - |t|])
    requires |r| <= |t| && r == t[..|r|] && IsBlank(t[|r|..])
    ensures FramedBy(s, r, |s| - |t|)
  {
    var k := |s| - |t|;
    SuffixSlices(s, k, |r|);
  }

  lemma SuffixSlices(s: string, k: nat, n: nat)
    requires k + n <= |s|
    ensures s[k..][..n] == s[k..k + n] && s[k..][n..] == s[k + n..]
  {
  }

  /** The trimmed text is empty exactly when the text is blank: this is the
      truthiness test `text.trim()` of the host. */
  lemma TrimEmptyIffBlank(s: string)
    ensures Trim(s) == [] <==> IsBlank(s)
  {
    TrimFramed(s);
    var k :| FramedBy(s, Trim(s), k);
  }
}

=== FILE: liveclient.dfy ===
/** The realtime session client (`LiveClient`): an immutable session record
    and one step function per input the client reacts to. Every callback the
    client makes to its host, every frame it hands to the transport and every
    start or stop it issues to the audio graph is appended to the record's
    log, in the order the client performs it. */
module LiveClient {
  import opened Results
  import Pcm
  import Base64

  datatype TurnState = Idle | Listening | Processing | Speaking

  datatype Role = User | Model

  /** Stands for one `AudioBufferSourceNode`; ids are never reused. */
  type SourceId = nat

  datatype Effect =
    /** `onOpen()` */
    | Opened
    /** `onClose()` */
    | Closed
    /** `onStateChange(state)` */
    | StateChanged(state: TurnState)
    /** `onTranscription(text, role, isFinal)` */
    | Transcribed(text: string, role: Role, isFinal: bool)
    /** `onError(error)` */
    | Failed(message: string)
    /** `sendRealtimeInput({ media })` */
    | AudioSent(blob: Pcm.Blob)
    /** `sendRealtimeInput({ text })` */
    | TextSent(text: string)
    /** `source.start(at)` for a buffer of `duration` seconds */
    | Started(source: SourceId, at: real, duration: real)
    /** `stop()` on every active source, on a barge-in */
    | Interrupted(stopped: set<SourceId>)
    /** `session.close()` */
    | TransportClosed

  /** The fields of a server message the client reads. `audio` is the data
      of the first part of the model turn; a transcription that is present
      but carries no text is `Some("")`. */
  datatype ServerMessage = ServerMessage(
    audio: Option<string>,
    inputTranscription: Option<string>,
    outputTranscription: Option<string>,
    turnComplete: bool,
    interrupted: bool)

  /** How the body of `connect()` ends: the audio graph, the microphone and
      the session promise were all set up, or one step threw (with an
      `Error`'s message, or `None` for a non-`Error` value). */
  datatype ConnectOutcome = SetUp | Threw(error: Option<string>)

  datatype Event =
    | ConnectDone(outcome: ConnectOutcome)
    | Open
    | Message(msg: ServerMessage, now: real)
    | Frame(samples: seq<Pcm.Float>)
    | Ended(source: SourceId)
    | TransportClose
    | TransportError(message: string)
    | SendText(text: string)
    | Disconnect

  /** The client's state. `connected` stands for a non-null session
      promise, which also means the audio graph and the capture processor
      exist. `nextSource` is the id the next created source gets. */
  datatype Session = Session(
    isClosing: bool,
    connected: bool,
    activeState: TurnState,
    inputText: string,
    outputText: string,
    sources: set<SourceId>,
    nextStartTime: real,
    nextSource: SourceId,
    log: seq<Effect>)

  const ActivityThreshold: real := 0.05
  const DefaultErrorMessage: string := "Live API Error"
  const ConnectErrorMessage: string := "Failed to connect"

  /** A freshly constructed client. */
  function NewSession(): (s: Session)
    ensures !s.isClosing && !s.connected && s.activeState == Idle
    ensures s.inputText == "" && s.outputText == "" && s.sources == {}
    ensures s.nextStartTime == 0.0 && s.log == []
  {
    Session(false, false, Idle, "", "", {}, 0.0, 0, [])
  }

  // ---------------------------------------------------------------------
  // The log

  /** `t` is `s` with its log extended, never rewritten. */
  predicate Extends(s: Session, t: Session) {
    |s.log| <= |t.log| && t.log[..|s.log|] == s.log
  }

  /** What `t` logged since `s`. */
  function Emitted(s: Session, t: Session): seq<Effect>
    requires Extends(s, t)
  {
    t.log[|s.log|..]
  }

  /** What a session logs over two stretches is what it logs over each. */
  lemma EmittedChain(s: Session, s1: Session, t: Session)
    requires Extends(s, s1) && Extends(s1, t)
    ensures Extends(s, t) && Emitted(s, t) == Emitted(s, s1) + Emitted(s1, t)
  {
    assert t.log[..|s.log|] == t.log[..|s1.log|][..|s.log|];
    assert t.log[|s.log|..] == t.log[|s.log|..|s1.log|] + t.log[|s1.log|..];
  }

  function Emit(s: Session, e: Effect): (t: Session)
    ensures Extends(s, t) && Emitted(s, t) == [e]
    ensures t.(log := s.log) == s
  {
    s.(log := s.log + [e])
  }

  // ---------------------------------------------------------------------
  // setState

  /** `setState`: records the new state and notifies the host only when the
      state actually changes. */
  function SetState(s: Session, st: TurnState): (t: Session)
    ensures t.activeState == st
    ensures Extends(s, t)
    ensures Emitted(s, t) == if s.activeState == st then [] else [StateChanged(st)]
    ensures t.(activeState := s.activeState, log := s.log) == s
  {
    if s.activeState != st then Emit(s.(activeState := st), StateChanged(st)) else s
  }

  /** Setting the current state again changes nothing and emits nothing. */
  lemma SetStateIdempotent(s: Session, st: TurnState)
    ensures SetState(SetState(s, st), st) == SetState(s, st)
    ensures SetState(s, s.activeState) == s
  {
  }

  // ---------------------------------------------------------------------
  // Voice-activity detection

  /** `Math.abs` */
  function Abs(x: Pcm.Float): Pcm.Float {
    match x
    case NaN => Pcm.NaN
    case Infinity(_) => Pcm.Infinity(false)
    case Finite(r) => Pcm.Finite(if r < 0.0 then -r else r)
  }

  /** `Math.max` of two numbers: NaN wins over everything. */
  function Max(a: Pcm.Float, b: Pcm.Float): Pcm.Float {
    if a.NaN? || b.NaN? then Pcm.NaN
    else if a == Pcm.Infinity(false) || b == Pcm.Infinity(true) then a
    else if b == Pcm.Infinity(false) || a == Pcm.Infinity(true) then b
    else if a.value >= b.value then a else b
  }

  /** `x > t` for a finite threshold; false for NaN. */
  predicate Exceeds(x: Pcm.Float, t: real) {
    match x
    case NaN => false
    case Infinity(negative) => !negative
    case Finite(r) => r > t
  }

  /** `Math.max` of two numbers exceeds a threshold exactly when one of
      them does, as long as neither is NaN. */
  lemma MaxExceeds(a: Pcm.Float, b: Pcm.Float, t: real)
    requires !a.NaN? && !b.NaN?
    ensures Exceeds(Max(a, b), t) <==> Exceeds(a, t) || Exceeds(b, t)
  {
  }

  /** `Math.max(...samples.map(Math.abs))`; `-Infinity` for no samples. */
  function Peak(samples: seq<Pcm.Float>): (p: Pcm.Float)
    ensures p.NaN? <==> exists i :: 0 <= i < |samples| && samples[i].NaN?
  {
    if |samples| == 0 then Pcm.Infinity(true)
    else
      var front := samples[..|samples| - 1];
      assert forall i :: 0 <= i < |front| ==> front[i] == samples[i];
      Max(Peak(front), Abs(samples[|samples| - 1]))
  }

  /** The peak of a NaN-free frame exceeds a threshold exactly when one of
      its samples does in absolute value. */
  lemma {:induction false} PeakExceeds(samples: seq<Pcm.Float>, t: real)
    requires forall i :: 0 <= i < |samples| ==> !samples[i].NaN?
    ensures Exceeds(Peak(samples), t) <==> exists i :: 0 <= i < |samples| && Exceeds(Abs(samples[i]), t)
  {
    if |samples| > 0 {
      var n := |samples| - 1;
      var front := samples[..n];
      assert forall i :: 0 <= i < |front| ==> front[i] == samples[i];
      PeakExceeds(front, t);
      MaxExceeds(Peak(front), Abs(samples[n]), t);
      if Exceeds(Peak(samples), t) && !Exceeds(Abs(samples[n]), t) {
        var i :| 0 <= i < |front| && Exceeds(Abs(front[i]), t);
        assert Exceeds(Abs(samples[i]), t);
      }
    }
  }

  /** The frame is loud: its peak absolute sample exceeds the threshold. */
  predicate IsLoud(samples: seq<Pcm.Float>)
    ensures IsLoud(samples) ==> |samples| > 0 && forall i :: 0 <= i < |samples| ==> !samples[i].NaN?
  {
    Exceeds(Peak(samples), ActivityThreshold)
  }

  /** A frame is loud exactly when it holds no NaN (which `Math.max` would
      propagate) and some sample's magnitude is above the threshold. */
  lemma LoudIff(samples: seq<Pcm.Float>)
    ensures IsLoud(samples) <==>
      && (forall i :: 0 <= i < |samples| ==> !samples[i].NaN?)
      && (exists i :: 0 <= i < |samples| && Exceeds(Abs(samples[i]), ActivityThreshold))
  {
    if forall i :: 0 <= i < |samples| ==> !samples[i].NaN? {
      PeakExceeds(samples, ActivityThreshold);
    }
  }

  /** A silent frame (no samples, as `Math.max()` is `-Infinity`) is never
      loud. */
  lemma EmptyFrameIsQuiet()
    ensures !IsLoud([])
  {
  }

  // ---------------------------------------------------------------------
  // Playback

  /** Places a decoded buffer of `duration` seconds on the output timeline:
      it starts at `max(nextStartTime, now)` and the cursor moves past it. */
  function Schedule(s: Session, duration: real, now: real): (t: Session)
    ensures Extends(s, t)
    ensures var at := t.nextStartTime - duration;
      && Emitted(s, t) == [Started(s.nextSource, at, duration)]
      && at >= now && at >= s.nextStartTime && (at == now || at == s.nextStartTime)
    ensures t.sources == s.sources + {s.nextSource} && t.nextSource == s.nextSource + 1
    ensures t.(log := s.log, sources := s.sources, nextStartTime := s.nextStartTime, nextSource := s.nextSource) == s
  {
    var at := if s.nextStartTime >= now then s.nextStartTime else now;
    Emit(s.(nextStartTime := at + duration, sources := s.sources + {s.nextSource}, nextSource := s.nextSource + 1),
         Started(s.nextSource, at, duration))
  }

  /** The buffer an audio payload plays as, or the error that drops it: a
      payload plays exactly when it is valid base64 of at least one whole
      16-bit sample, as a mono buffer at the output rate with one frame per
      sample (an odd trailing byte is dropped). */
  function DecodeChunk(payload: string): (r: Result<Pcm.AudioBuffer>)
    ensures r.Ok? <==> Pcm.Decode(payload).Ok? && |Pcm.Decode(payload).value| >= 2
    ensures r.Ok? ==>
      && r.value.sampleRate == Pcm.OutputSampleRate
      && r.value.length == |Pcm.Decode(payload).value| / 2
      && |r.value.channels| == 1 && |r.value.channels[0]| == r.value.length
      && forall i :: 0 <= i < r.value.length ==>
           r.value.channels[0][i] == Pcm.Unpack(Pcm.Decode(payload).value)[i] as real / Pcm.DecodeScale
  {
    match Pcm.Decode(payload)
    case Err(e) => Err(e)
    case Ok(bytes) => Pcm.DecodeAudioData(bytes, Pcm.OutputSampleRate, 1)
  }

  /** `playAudio`: a payload that fails to decode is swallowed and changes
      nothing; otherwise its buffer is scheduled. */
  function PlayAudio(s: Session, payload: string, now: real): (t: Session)
    ensures Extends(s, t)
    ensures (s.isClosing || !s.connected || DecodeChunk(payload).Err?) ==> t == s
    ensures !s.isClosing && s.connected && DecodeChunk(payload).Ok? ==>
      t == Schedule(s, DecodeChunk(payload).value.Duration(), now)
  {
    if s.isClosing || !s.connected then s
    else match DecodeChunk(payload)
      case Err(_) => s
      case Ok(buffer) => Schedule(s, buffer.Duration(), now)
  }

  /** `onended` of a source: it leaves the active set, and the client turns
      idle once the set is empty while it was speaking. */
  function SourceEnded(s: Session, id: SourceId): (t: Session)
    ensures Extends(s, t)
    ensures t.sources == s.sources - {id}
    ensures t.activeState == (if t.sources == {} && s.activeState == Speaking then Idle else s.activeState)
    ensures Emitted(s, t) == if t.sources == {} && s.activeState == Speaking then [StateChanged(Idle)] else []
    ensures t.(sources := s.sources, activeState := s.activeState, log := s.log) == s
  {
    var s1 := s.(sources := s.sources - {id});
    if s1.sources == {} && s1.activeState == Speaking then SetState(s1, Idle) else s1
  }

  // ---------------------------------------------------------------------
  // One server message, in the order the handler reads it

  predicate Truthy(o: Option<string>) {
    o.Some? && o.value != ""
  }

  /** A non-empty payload makes the client speaking before it is played;
      the state stays speaking whether or not the payload plays. */
  function HandleAudio(s: Session, audio: Option<string>, now: real): (t: Session)
    ensures Extends(s, t)
    ensures !Truthy(audio) ==> t == s
    ensures Truthy(audio) ==> t.activeState == Speaking
    ensures Truthy(audio) ==> t == PlayAudio(SetState(s, Speaking), audio.value, now)
  {
    if Truthy(audio) then PlayAudio(SetState(s, Speaking), audio.value, now) else s
  }

  /** A non-empty delta is appended to the role's buffer and the whole
      buffer is reported as non-final; an empty or absent one changes
      nothing. */
  function HandleTranscript(s: Session, role: Role, delta: Option<string>): (t: Session)
    ensures Extends(s, t)
    ensures !Truthy(delta) ==> t == s
    ensures Truthy(delta) && role == User ==>
      t.inputText == s.inputText + delta.value && t.outputText == s.outputText
    ensures Truthy(delta) && role == Model ==>
      t.outputText == s.outputText + delta.value && t.inputText == s.inputText
    ensures Truthy(delta) ==>
      Emitted(s, t) == [Transcribed(if role == User then t.inputText else t.outputText, role, false)]
    ensures t.(inputText := s.inputText, outputText := s.outputText, log := s.log) == s
  {
    if !Truthy(delta) then s
    else match role
      case User =>
        var s1 := s.(inputText := s.inputText + delta.value);
        Emit(s1, Transcribed(s1.inputText, User, false))
      case Model =>
        var s1 := s.(outputText := s.outputText + delta.value);
        Emit(s1, Transcribed(s1.outputText, Model, false))
  }

  /** Turn completion flushes both buffers as finals (empty ones too),
      empties them and returns to idle. */
  function HandleTurnComplete(s: Session, turnComplete: bool): (t: Session)
    ensures Extends(s, t)
    ensures !turnComplete ==> t == s
    ensures turnComplete ==>
      && t.inputText == "" && t.outputText == "" && t.activeState == Idle
      && Emitted(s, t) == [Transcribed(s.inputText, User, true), Transcribed(s.outputText, Model, true)]
                          + (if s.activeState == Idle then [] else [StateChanged(Idle)])
      && t.sources == s.sources && t.nextStartTime == s.nextStartTime
  {
    if !turnComplete then s
    else
      var s1 := Emit(Emit(s, Transcribed(s.inputText, User, true)), Transcribed(s.outputText, Model, true));
      SetState(s1.(inputText := "", outputText := ""), Idle)
  }

  /** A barge-in stops and forgets every active source, rewinds the cursor
      to 0, drops the model's buffer without reporting it, keeps the user's
      buffer and returns to idle. */
  function HandleInterrupted(s: Session, interrupted: bool): (t: Session)
    ensures Extends(s, t)
    ensures !interrupted ==> t == s
    ensures interrupted ==>
      && t.sources == {} && t.nextStartTime == 0.0
      && t.outputText == "" && t.inputText == s.inputText && t.activeState == Idle
      && Emitted(s, t) == [Interrupted(s.sources)] + (if s.activeState == Idle then [] else [StateChanged(Idle)])
  {
    if !interrupted then s
    else
      var s1 := Emit(s, Interrupted(s.sources));
      SetState(s1.(sources := {}, nextStartTime := 0.0, outputText := ""), Idle)
  }

  /** `onmessage`: audio first, then the user's and the model's
      transcription, then turn completion, then a barge-in. */
  function HandleMessage(s: Session, m: ServerMessage, now: real): (t: Session)
    ensures Extends(s, t)
    ensures s.isClosing ==> t == s
    ensures !s.isClosing && (m.turnComplete || m.interrupted) ==> t.activeState == Idle && t.outputText == ""
    ensures !s.isClosing && m.turnComplete ==> t.inputText == ""
    ensures !s.isClosing && m.interrupted ==> t.sources == {} && t.nextStartTime == 0.0
    ensures !s.isClosing && !m.turnComplete && !m.interrupted ==>
      t.activeState == (if Truthy(m.audio) then Speaking else s.activeState)
  {
    if s.isClosing then s
    else
      var s3 := HandleContent(s, m, now);
      var s4 := HandleTurnComplete(s3, m.turnComplete);
      HandleInterrupted(s4, m.interrupted)
  }

  /** The first half of `onmessage`: the audio payload, then the user's and
      the model's transcription. */
  function HandleContent(s: Session, m: ServerMessage, now: real): (t: Session)
    ensures Extends(s, t)
    ensures t.isClosing == s.isClosing
    ensures t.activeState == (if Truthy(m.audio) then Speaking else s.activeState)
  {
    var s1 := HandleAudio(s, m.audio, now);
    var s2 := HandleTranscript(s1, User, m.inputTranscription);
    HandleTranscript(s2, Model, m.outputTranscription)
  }

  // ---------------------------------------------------------------------
  // What the host hears of a message

  /** The transcription callbacks among `es`, in order. */
  function Reports(es: seq<Effect>): (r: seq<Effect>)
    ensures forall i :: 0 <= i < |r| ==> r[i].Transcribed?
    ensures |r| <= |es|
  {
    if es == [] then [] else (if es[0].Transcribed? then [es[0]] else []) + Reports(es[1..])
  }

  lemma ReportsOne(e: Effect)
    ensures Reports([e]) == if e.Transcribed? then [e] else []
  {
    assert [e][1..] == [];
  }

  /** Reading the reports of two stretches is reading each. */
  lemma {:induction false} ReportsAppend(a: seq<Effect>, b: seq<Effect>)
    ensures Reports(a + b) == Reports(a) + Reports(b)
    decreases |a|
  {
    if a == [] {
      assert a + b == b;
    } else {
      assert (a + b)[0] == a[0] && (a + b)[1..] == a[1..] + b;
      ReportsAppend(a[1..], b);
    }
  }

  /** A buffer after a transcription field: extended by a non-empty
      delta, unchanged otherwise. */
  function Extended(buffer: string, o: Option<string>): string {
    if Truthy(o) then buffer + o.value else buffer
  }

  /** The reports one message makes, read off the message alone: a
      non-final report of each buffer the message extends, then, on turn
      completion, both buffers as finals, this message's own deltas
      included. A barge-in reports nothing: the model's text it drops was
      only ever shown as non-final. */
  function ExpectedReports(s: Session, m: ServerMessage): seq<Effect> {
    var input := Extended(s.inputText, m.inputTranscription);
    var output := Extended(s.outputText, m.outputTranscription);
    (if Truthy(m.inputTranscription) then [Transcribed(input, User, false)] else [])
    + (if Truthy(m.outputTranscription) then [Transcribed(output, Model, false)] else [])
    + (if m.turnComplete then [Transcribed(input, User, true), Transcribed(output, Model, true)] else [])
  }

  /** `onmessage` makes exactly the expected reports. */
  lemma MessageReports(s: Session, m: ServerMessage, now: real)
    requires !s.isClosing
    ensures Reports(Emitted(s, HandleMessage(s, m, now))) == ExpectedReports(s, m)
  {
    var s3 := HandleContent(s, m, now);
    var s4 := HandleTurnComplete(s3, m.turnComplete);
    var t := HandleInterrupted(s4, m.interrupted);
    assert t == HandleMessage(s, m, now);
    ContentReports(s, m, now);
    ContentBuffers(s, m, now);
    TurnCompleteReports(s3, m.turnComplete);
    InterruptedReportsNothing(s4, m.interrupted);
    ReportsBeforeQuiet(s, s3, s4, t);
    ExpectedFromBuffers(s, m, s3.inputText, s3.outputText);
  }

  /** The expected reports in terms of the buffers after the message's
      deltas. */
  lemma ExpectedFromBuffers(s: Session, m: ServerMessage, input: string, output: string)
    requires input == Extended(s.inputText, m.inputTranscription)
    requires output == Extended(s.outputText, m.outputTranscription)
    ensures ExpectedReports(s, m) ==
      (if Truthy(m.inputTranscription) then [Transcribed(input, User, false)] else [])
      + (if Truthy(m.outputTranscription) then [Transcribed(output, Model, false)] else [])
      + (if m.turnComplete then [Transcribed(input, User, true), Transcribed(output, Model, true)] else [])
  {
  }

  /** After `onmessage` each buffer holds its extended text, unless the
      message ended the turn (both are emptied) or barged in (the model's
      is). */
  lemma MessageBuffers(s: Session, m: ServerMessage, now: real)
    requires !s.isClosing
    ensures var t := HandleMessage(s, m, now);
      && t.inputText == (if m.turnComplete then "" else Extended(s.inputText, m.inputTranscription))
      && t.outputText == (if m.turnComplete || m.interrupted then "" else Extended(s.outputText, m.outputTranscription))
  {
    ContentBuffers(s, m, now);
  }

  /** A session's reports over three stretches, the last without any. */
  lemma ReportsBeforeQuiet(s: Session, s1: Session, s2: Session, t: Session)
    requires Extends(s, s1) && Extends(s1, s2) && Extends(s2, t)
    requires Reports(Emitted(s2, t)) == []
    ensures Extends(s, t) && Reports(Emitted(s, t)) == Reports(Emitted(s, s1)) + Reports(Emitted(s1, s2))
  {
    EmittedChain(s, s1, s2);
    EmittedChain(s, s2, t);
    ReportsAppend(Emitted(s, s1), Emitted(s1, s2));
    ReportsAppend(Emitted(s, s2), Emitted(s2, t));
  }

  /** A session's reports over three stretches, the first without any. */
  lemma ReportsAfterQuiet(s: Session, s1: Session, s2: Session, t: Session)
    requires Extends(s, s1) && Extends(s1, s2) && Extends(s2, t)
    requires Reports(Emitted(s, s1)) == []
    ensures Extends(s, t) && Reports(Emitted(s, t)) == Reports(Emitted(s1, s2)) + Reports(Emitted(s2, t))
  {
    EmittedChain(s, s1, s2);
    EmittedChain(s, s2, t);
    ReportsAppend(Emitted(s, s1), Emitted(s1, s2));
    ReportsAppend(Emitted(s, s2), Emitted(s2, t));
  }

  /** The first half of `onmessage` reports each buffer it extends, user
      first. */
  lemma ContentReports(s: Session, m: ServerMessage, now: real)
    ensures var t := HandleContent(s, m, now);
      Reports(Emitted(s, t)) ==
        (if Truthy(m.inputTranscription) then [Transcribed(t.inputText, User, false)] else [])
        + (if Truthy(m.outputTranscription) then [Transcribed(t.outputText, Model, false)] else [])
  {
    var s1 := HandleAudio(s, m.audio, now);
    var s2 := HandleTranscript(s1, User, m.inputTranscription);
    var t := HandleTranscript(s2, Model, m.outputTranscription);
    assert t == HandleContent(s, m, now);
    AudioReportsNothing(s, m.audio, now);
    TranscriptReports(s1, User, m.inputTranscription);
    TranscriptReports(s2, Model, m.outputTranscription);
    ReportsAfterQuiet(s, s1, s2, t);
  }

  /** The first half of `onmessage` extends each buffer by its delta. */
  lemma ContentBuffers(s: Session, m: ServerMessage, now: real)
    ensures var t := HandleContent(s, m, now);
      && t.inputText == Extended(s.inputText, m.inputTranscription)
      && t.outputText == Extended(s.outputText, m.outputTranscription)
  {
    AudioReportsNothing(s, m.audio, now);
  }

  lemma AudioReportsNothing(s: Session, audio: Option<string>, now: real)
    ensures var t := HandleAudio(s, audio, now);
      Reports(Emitted(s, t)) == [] && t.inputText == s.inputText && t.outputText == s.outputText
  {
    if Truthy(audio) {
      var s1 := SetState(s, Speaking);
      var t := PlayAudio(s1, audio.value, now);
      EmittedChain(s, s1, t);
      ReportsOne(StateChanged(Speaking));
      if Emitted(s1, t) != [] {
        var e := Emitted(s1, t)[0];
        assert Emitted(s1, t) == [e] && e.Started?;
        ReportsOne(e);
      }
      ReportsAppend(Emitted(s, s1), Emitted(s1, t));
    }
  }

  lemma TranscriptReports(s: Session, role: Role, delta: Option<string>)
    ensures var t := HandleTranscript(s, role, delta);
      Reports(Emitted(s, t)) ==
        if Truthy(delta) then [Transcribed(if role == User then t.inputText else t.outputText, role, false)] else []
  {
    var t := HandleTranscript(s, role, delta);
    if Truthy(delta) {
      ReportsOne(Transcribed(if role == User then t.inputText else t.outputText, role, false));
    }
  }

  lemma TurnCompleteReports(s: Session, turnComplete: bool)
    ensures var t := HandleTurnComplete(s, turnComplete);
      Reports(Emitted(s, t)) ==
        if turnComplete then [Transcribed(s.inputText, User, true), Transcribed(s.outputText, Model, true)] else []
  {
    if turnComplete {
      var finals := [Transcribed(s.inputText, User, true), Transcribed(s.outputText, Model, true)];
      var rest: seq<Effect> := if s.activeState == Idle then [] else [StateChanged(Idle)];
      ReportsAppend(finals, rest);
      ReportsOne(StateChanged(Idle));
      assert finals == [finals[0]] + [finals[1]];
      ReportsAppend([finals[0]], [finals[1]]);
      ReportsOne(finals[0]);
      ReportsOne(finals[1]);
    }
  }

  lemma InterruptedReportsNothing(s: Session, interrupted: bool)
    ensures var t := HandleInterrupted(s, interrupted); Reports(Emitted(s, t)) == []
  {
    if interrupted {
      var rest: seq<Effect> := if s.activeState == Idle then [] else [StateChanged(Idle)];
      ReportsAppend([Interrupted(s.sources)], rest);
      ReportsOne(Interrupted(s.sources));
      ReportsOne(StateChanged(Idle));
    }
  }

  /** A model delta that arrives with the turn completion is part of the
      final: "ab" extended by "c" is shown as "abc", then flushed as "abc". */
  lemma FlushCarriesLastDelta(s: Session, m: ServerMessage, now: real)
    requires !s.isClosing && s.inputText == "" && s.outputText == "ab"
    requires m == ServerMessage(None, None, Some("c"), true, false)
    ensures Reports(Emitted(s, HandleMessage(s, m, now))) ==
      [Transcribed("abc", Model, false), Transcribed("", User, true), Transcribed("abc", Model, true)]
  {
    MessageReports(s, m, now);
    ExpectedFlush(s, m);
  }

  lemma ExpectedFlush(s: Session, m: ServerMessage)
    requires s.inputText == "" && s.outputText == "ab"
    requires m == ServerMessage(None, None, Some("c"), true, false)
    ensures ExpectedReports(s, m) ==
      [Transcribed("abc", Model, false), Transcribed("", User, true), Transcribed("abc", Model, true)]
  {
    assert "ab" + "c" == "abc";
  }

  /** A model delta that arrives with a barge-in is shown once as non-final
      and then dropped: no final ever carries it. */
  lemma BargeInDropsLastDelta(s: Session, m: ServerMessage, now: real)
    requires !s.isClosing && s.outputText == "ab"
    requires m == ServerMessage(None, None, Some("c"), false, true)
    ensures var t := HandleMessage(s, m, now);
      Reports(Emitted(s, t)) == [Transcribed("abc", Model, false)] && t.outputText == ""
  {
    MessageReports(s, m, now);
    MessageBuffers(s, m, now);
    assert "ab" + "c" == "abc";
  }

  // ---------------------------------------------------------------------
  // The other inputs

  function Connect(s: Session, outcome: ConnectOutcome): (t: Session)
    ensures Extends(s, t)
    ensures s.isClosing ==> t == s
    ensures !s.isClosing && outcome.SetUp? ==> t == s.(connected := true)
    ensures !s.isClosing && outcome.Threw? ==>
      Emitted(s, t) == [Failed(if outcome.error.Some? then outcome.error.value else ConnectErrorMessage)]
      && t.(log := s.log) == s
  {
    if s.isClosing then s
    else match outcome
      case SetUp => s.(connected := true)
      case Threw(error) => Emit(s, Failed(if error.Some? then error.value else ConnectErrorMessage))
  }

  /** `connect()` completing as the code has it: the closing flag is read
      only when `connect()` starts, so a setup that completes after a
      `disconnect` still stores its session promise, and a failure still
      reaches `onError`. Away from a disconnect it is `Connect`. */
  function ConnectAsWritten(s: Session, outcome: ConnectOutcome): (t: Session)
    ensures Extends(s, t)
    ensures outcome.SetUp? ==> t == s.(connected := true)
    ensures outcome.Threw? ==>
      Emitted(s, t) == [Failed(if outcome.error.Some? then outcome.error.value else ConnectErrorMessage)]
      && t.(log := s.log) == s
    ensures !s.isClosing ==> t == Connect(s, outcome)
  {
    match outcome
    case SetUp => s.(connected := true)
    case Threw(error) => Emit(s, Failed(if error.Some? then error.value else ConnectErrorMessage))
  }

  /** The first half of `onopen`: the host is told the session is open. */
  function AnnounceOpen(s: Session): (t: Session)
    ensures Extends(s, t)
    ensures s.isClosing ==> t == s
    ensures !s.isClosing ==> Emitted(s, t) == [Opened] && t.(log := s.log) == s
  {
    if s.isClosing then s else Emit(s, Opened)
  }

  /** The second half of `onopen`, after the host's `onOpen` has run. */
  function SettleOpen(s: Session): (t: Session)
    ensures Extends(s, t)
    ensures s.isClosing ==> t == s
    ensures !s.isClosing ==>
      && t.activeState == Idle
      && Emitted(s, t) == (if s.activeState == Idle then [] else [StateChanged(Idle)])
      && t.(activeState := s.activeState, log := s.log) == s
  {
    if s.isClosing then s else SetState(s, Idle)
  }

  /** `onaudioprocess`: a loud frame moves an idle client to listening, and
      the encoded frame is sent while a session exists. */
  function CaptureFrame(s: Session, samples: seq<Pcm.Float>): (t: Session)
    ensures Extends(s, t)
    ensures s.isClosing || !s.connected ==> t == s
    ensures !s.isClosing && s.connected ==>
      && t.activeState == (if IsLoud(samples) && s.activeState == Idle then Listening else s.activeState)
      && Emitted(s, t) == (if IsLoud(samples) && s.activeState == Idle then [StateChanged(Listening)] else [])
                          + [AudioSent(Pcm.CreateBlob(samples))]
      && t.(activeState := s.activeState, log := s.log) == s
  {
    if s.isClosing || !s.connected then s else SendFrame(s, samples)
  }

  /** The connected branch of `onaudioprocess`: activity detection, then
      the frame goes out. */
  function SendFrame(s: Session, samples: seq<Pcm.Float>): (t: Session)
    ensures Extends(s, t)
    ensures t.activeState == (if IsLoud(samples) && s.activeState == Idle then Listening else s.activeState)
    ensures Emitted(s, t) == (if IsLoud(samples) && s.activeState == Idle then [StateChanged(Listening)] else [])
                             + [AudioSent(Pcm.CreateBlob(samples))]
    ensures t.(activeState := s.activeState, log := s.log) == s
  {
    var s1 := NoteActivity(s, samples);
    var t := Emit(s1, AudioSent(Pcm.CreateBlob(samples)));
    EmittedChain(s, s1, t);
    t
  }

  /** Voice-activity detection alone: a loud frame moves an idle client to
      listening; any other state, or a quieter frame, stays as it is. */
  function NoteActivity(s: Session, samples: seq<Pcm.Float>): (t: Session)
    ensures Extends(s, t)
    ensures t.activeState == (if IsLoud(samples) && s.activeState == Idle then Listening else s.activeState)
    ensures Emitted(s, t) == (if IsLoud(samples) && s.activeState == Idle then [StateChanged(Listening)] else [])
    ensures t.(activeState := s.activeState, log := s.log) == s
  {
    if IsLoud(samples) && s.activeState == Idle then SetState(s, Listening) else s
  }

  function SendTextTo(s: Session, text: string): (t: Session)
    ensures Extends(s, t)
    ensures s.isClosing || !s.connected ==> t == s
    ensures !s.isClosing && s.connected ==> Emitted(s, t) == [TextSent(text)] && t.(log := s.log) == s
  {
    if s.isClosing || !s.connected then s else Emit(s, TextSent(text))
  }

  /** `disconnect`: the first call raises the closing flag, tells the host
      once and closes the transport if there is one; later calls do
      nothing. The host hears of the close first: `onClose` runs before
      `disconnect` returns, `session.close()` only once the session promise
      settles. */
  function DisconnectSession(s: Session): (t: Session)
    ensures Extends(s, t) && t.isClosing
    ensures s.isClosing ==> t == s
    ensures !s.isClosing ==>
      !t.connected &&
      Emitted(s, t) == [Closed] + (if s.connected then [TransportClosed] else [])
      && t.(isClosing := s.isClosing, connected := s.connected, log := s.log) == s
  {
    if s.isClosing then s
    else
      var s1 := Emit(s.(isClosing := true, connected := false), Closed);
      if s.connected then Emit(s1, TransportClosed) else s1
  }

  /** `onerror`: reported unless closing; an empty message is replaced. */
  function TransportFailed(s: Session, message: string): (t: Session)
    ensures Extends(s, t)
    ensures s.isClosing ==> t == s
    ensures !s.isClosing ==>
      Emitted(s, t) == [Failed(if message != "" then message else DefaultErrorMessage)] && t.(log := s.log) == s
  {
    if s.isClosing then s else Emit(s, Failed(if message != "" then message else DefaultErrorMessage))
  }

  /** The client's reaction to one input. Once closing, only the end of a
      buffer that was already playing can still do anything, and all it can
      do is tell the host the client went idle. */
  function Step(s: Session, e: Event): (t: Session)
    ensures Extends(s, t)
    ensures s.isClosing ==> t.isClosing
    ensures s.isClosing && !e.Ended? ==> t == s
    ensures s.isClosing ==> Emitted(s, t) == [] || Emitted(s, t) == [StateChanged(Idle)]
  {
    match e
    case ConnectDone(outcome) => Connect(s, outcome)
    case Open => SettleOpen(AnnounceOpen(s))
    case Message(m, now) => HandleMessage(s, m, now)
    case Frame(samples) => CaptureFrame(s, samples)
    case Ended(id) => SourceEnded(s, id)
    case TransportClose => if !s.isClosing then DisconnectSession(s) else s
    case TransportError(message) => TransportFailed(s, message)
    case SendText(text) => SendTextTo(s, text)
    case Disconnect => DisconnectSession(s)
  }

  /** The client after a sequence of inputs. */
  function Run(s: Session, es: seq<Event>): (t: Session)
    ensures Extends(s, t)
    ensures s.isClosing ==> t.isClosing
    ensures s.isClosing ==> forall k :: |s.log| <= k < |t.log| ==> t.log[k] == StateChanged(Idle)
    decreases |es|
  {
    if es == [] then s
    else
      var s1 := Step(s, es[0]);
      var t := Run(s1, es[1..]);
      assert forall k :: |s.log| <= k < |s1.log| ==> s1.log[k] == Emitted(s, s1)[k - |s.log|];
      t
  }

  /** Running a sequence and then one more input is stepping the result. */
  lemma {:induction false} RunSnoc(s: Session, es: seq<Event>, e: Event)
    ensures Run(s, es + [e]) == Step(Run(s, es), e)
    decreases |es|
  {
    if es == [] {
      assert Run(Step(s, e), []) == Step(s, e);
    } else {
      assert (es + [e])[0] == es[0] && (es + [e])[1..] == es[1..] + [e];
      RunSnoc(Step(s, es[0]), es[1..], e);
    }
  }

  // ---------------------------------------------------------------------
  // What the log says, read from its end

  /** How many times the host was told the session closed. */
  function ClosedCount(log: seq<Effect>): nat {
    if log == [] then 0
    else ClosedCount(log[..|log| - 1]) + (if log[|log| - 1].Closed? then 1 else 0)
  }

  /** The state the host last heard of; a new client starts idle. */
  function LastState(log: seq<Effect>): TurnState {
    if log == [] then Idle
    else if log[|log| - 1].StateChanged? then log[|log| - 1].state
    else LastState(log[..|log| - 1])
  }

  /** No state change reports the state the host already had. */
  predicate NoRepeats(log: seq<Effect>) {
    log == [] ||
      (NoRepeats(log[..|log| - 1]) &&
       (log[|log| - 1].StateChanged? ==> log[|log| - 1].state != LastState(log[..|log| - 1])))
  }

  /** One scheduled buffer: it plays from `at` for `length` seconds. */
  datatype Span = Span(at: real, length: real)

  /** The buffers started since the last barge-in, oldest first. */
  function Spans(log: seq<Effect>): seq<Span> {
    if log == [] then []
    else
      var e := log[|log| - 1];
      if e.Interrupted? then []
      else if e.Started? then Spans(log[..|log| - 1]) + [Span(e.at, e.duration)]
      else Spans(log[..|log| - 1])
  }

  /** Each span has a non-negative length, starts at or after the end of the
      one before it, and the last ends at or before `cursor`. */
  predicate Sequential(spans: seq<Span>, cursor: real) {
    spans == [] ||
      (var last := spans[|spans| - 1];
       last.length >= 0.0 && last.at + last.length <= cursor && Sequential(spans[..|spans| - 1], last.at))
  }

  lemma SequentialWeaken(spans: seq<Span>, c: real, d: real)
    requires Sequential(spans, c) && c <= d
    ensures Sequential(spans, d)
  {
  }

  /** Sequential spans never overlap, whatever their distance apart. */
  lemma {:induction false} SequentialDisjoint(spans: seq<Span>, cursor: real)
    requires Sequential(spans, cursor)
    ensures forall i, j :: 0 <= i < j < |spans| ==> spans[i].at + spans[i].length <= spans[j].at
    ensures forall i :: 0 <= i < |spans| ==> spans[i].at + spans[i].length <= cursor
  {
    if spans != [] {
      var n := |spans| - 1;
      var front := spans[..n];
      SequentialDisjoint(front, spans[n].at);
      assert forall i :: 0 <= i < n ==> front[i] == spans[i];
    }
  }

  /** Appending one effect moves each reading of the log by that effect
      alone. */
  lemma Snoc(log: seq<Effect>, e: Effect)
    ensures (log + [e])[..|log|] == log
    ensures ClosedCount(log + [e]) == ClosedCount(log) + (if e.Closed? then 1 else 0)
    ensures LastState(log + [e]) == if e.StateChanged? then e.state else LastState(log)
    ensures NoRepeats(log + [e]) <==> NoRepeats(log) && (e.StateChanged? ==> e.state != LastState(log))
    ensures Spans(log + [e]) ==
      if e.Interrupted? then [] else if e.Started? then Spans(log) + [Span(e.at, e.duration)] else Spans(log)
  {
    assert (log + [e])[..|log|] == log;
  }

  // ---------------------------------------------------------------------
  // The session invariant

  /** What holds of every client the inputs above can produce: the closing
      flag has no live session behind it and was announced exactly once; the
      host's view of the turn state is the client's own and never repeats;
      active sources carry issued ids; and the buffers queued since the last
      barge-in play one after another, ending by the cursor. */
  predicate Valid(s: Session) {
    && (s.isClosing ==> !s.connected)
    && ClosedCount(s.log) == (if s.isClosing then 1 else 0)
    && NoRepeats(s.log)
    && LastState(s.log) == s.activeState
    && (forall id :: id in s.sources ==> id < s.nextSource)
    && Sequential(Spans(s.log), s.nextStartTime)
  }

  lemma NewSessionValid()
    ensures Valid(NewSession())
  {
  }

  /** Effects the invariant does not look at. */
  predicate Neutral(e: Effect) {
    !e.Closed? && !e.StateChanged? && !e.Started? && !e.Interrupted?
  }

  lemma EmitNeutralValid(s: Session, e: Effect)
    requires Valid(s) && Neutral(e)
    ensures Valid(Emit(s, e))
  {
    Snoc(s.log, e);
  }

  lemma SetStateValid(s: Session, st: TurnState)
    requires Valid(s)
    ensures Valid(SetState(s, st))
  {
    Snoc(s.log, StateChanged(st));
  }

  lemma ScheduleValid(s: Session, duration: real, now: real)
    requires Valid(s) && duration >= 0.0
    ensures Valid(Schedule(s, duration, now))
  {
    var t := Schedule(s, duration, now);
    var at := t.nextStartTime - duration;
    Snoc(s.log, Started(s.nextSource, at, duration));
    SequentialWeaken(Spans(s.log), s.nextStartTime, at);
  }

  lemma PlayAudioValid(s: Session, payload: string, now: real)
    requires Valid(s)
    ensures Valid(PlayAudio(s, payload, now))
  {
    if !s.isClosing && s.connected && DecodeChunk(payload).Ok? {
      var b := DecodeChunk(payload).value;
      assert b.Duration() >= 0.0;
      ScheduleValid(s, b.Duration(), now);
    }
  }

  lemma HandleTranscriptValid(s: Session, role: Role, delta: Option<string>)
    requires Valid(s)
    ensures Valid(HandleTranscript(s, role, delta))
  {
    if Truthy(delta) {
      var t := HandleTranscript(s, role, delta);
      Snoc(s.log, t.log[|s.log|]);
    }
  }

  lemma HandleTurnCompleteValid(s: Session, turnComplete: bool)
    requires Valid(s)
    ensures Valid(HandleTurnComplete(s, turnComplete))
  {
    if turnComplete {
      var s1 := Emit(s, Transcribed(s.inputText, User, true));
      EmitNeutralValid(s, Transcribed(s.inputText, User, true));
      var s2 := Emit(s1, Transcribed(s.outputText, Model, true));
      EmitNeutralValid(s1, Transcribed(s.outputText, Model, true));
      SetStateValid(s2.(inputText := "", outputText := ""), Idle);
    }
  }

  lemma HandleInterruptedValid(s: Session, interrupted: bool)
    requires Valid(s)
    ensures Valid(HandleInterrupted(s, interrupted))
  {
    if interrupted {
      var s1 := Emit(s, Interrupted(s.sources));
      Snoc(s.log, Interrupted(s.sources));
      SetStateValid(s1.(sources := {}, nextStartTime := 0.0, outputText := ""), Idle);
    }
  }

  lemma HandleMessageValid(s: Session, m: ServerMessage, now: real)
    requires Valid(s)
    ensures Valid(HandleMessage(s, m, now))
  {
    if !s.isClosing {
      var s1 := HandleAudio(s, m.audio, now);
      if Truthy(m.audio) {
        SetStateValid(s, Speaking);
        PlayAudioValid(SetState(s, Speaking), m.audio.value, now);
      }
      var s2 := HandleTranscript(s1, User, m.inputTranscription);
      HandleTranscriptValid(s1, User, m.inputTranscription);
      var s3 := HandleTranscript(s2, Model, m.outputTranscription);
      HandleTranscriptValid(s2, Model, m.outputTranscription);
      var s4 := HandleTurnComplete(s3, m.turnComplete);
      HandleTurnCompleteValid(s3, m.turnComplete);
      HandleInterruptedValid(s4, m.interrupted);
    }
  }

  lemma CaptureFrameValid(s: Session, samples: seq<Pcm.Float>)
    requires Valid(s)
    ensures Valid(CaptureFrame(s, samples))
  {
    if !s.isClosing && s.connected {
      var s1 := NoteActivity(s, samples);
      if IsLoud(samples) && s.activeState == Idle {
        SetStateValid(s, Listening);
      }
      EmitNeutralValid(s1, AudioSent(Pcm.CreateBlob(samples)));
    }
  }

  lemma SourceEndedValid(s: Session, id: SourceId)
    requires Valid(s)
    ensures Valid(SourceEnded(s, id))
  {
    var s1 := s.(sources := s.sources - {id});
    if s1.sources == {} && s1.activeState == Speaking {
      SetStateValid(s1, Idle);
    }
  }

  lemma DisconnectValid(s: Session)
    requires Valid(s)
    ensures Valid(DisconnectSession(s))
  {
    if !s.isClosing {
      var s1 := s.(isClosing := true, connected := false);
      var s2 := Emit(s1, Closed);
      Snoc(s1.log, Closed);
      assert Valid(s2);
      if s.connected {
        EmitNeutralValid(s2, TransportClosed);
        assert DisconnectSession(s) == Emit(s2, TransportClosed);
      } else {
        assert DisconnectSession(s) == s2;
      }
    }
  }

  /** Every input keeps the session invariant. */
  lemma ConnectValid(s: Session, outcome: ConnectOutcome)
    requires Valid(s)
    ensures Valid(Connect(s, outcome))
  {
    if !s.isClosing && outcome.Threw? {
      var e := Failed(if outcome.error.Some? then outcome.error.value else ConnectErrorMessage);
      EmitNeutralValid(s, e);
      assert Connect(s, outcome) == Emit(s, e);
    }
  }

  lemma OpenValid(s: Session)
    requires Valid(s)
    ensures Valid(SettleOpen(AnnounceOpen(s)))
  {
    if !s.isClosing {
      EmitNeutralValid(s, Opened);
      SetStateValid(AnnounceOpen(s), Idle);
    }
  }

  lemma TransportFailedValid(s: Session, message: string)
    requires Valid(s)
    ensures Valid(TransportFailed(s, message))
  {
    if !s.isClosing {
      var e := Failed(if message != "" then message else DefaultErrorMessage);
      EmitNeutralValid(s, e);
      assert TransportFailed(s, message) == Emit(s, e);
    }
  }

  lemma SendTextValid(s: Session, text: string)
    requires Valid(s)
    ensures Valid(SendTextTo(s, text))
  {
    if !s.isClosing && s.connected {
      EmitNeutralValid(s, TextSent(text));
      assert SendTextTo(s, text) == Emit(s, TextSent(text));
    }
  }

  lemma StepValid(s: Session, e: Event)
    requires Valid(s)
    ensures Valid(Step(s, e))
  {
    if e.ConnectDone? || e.Open? || e.TransportError? {
      SetupStepValid(s, e);
    } else if e.Message? || e.Frame? || e.Ended? {
      TrafficStepValid(s, e);
    } else {
      ClosingStepValid(s, e);
    }
  }

  lemma SetupStepValid(s: Session, e: Event)
    requires Valid(s) && (e.ConnectDone? || e.Open? || e.TransportError?)
    ensures Valid(Step(s, e))
  {
    match e
    case ConnectDone(outcome) =>
      ConnectValid(s, outcome);
      assert Step(s, e) == Connect(s, outcome);
    case Open =>
      OpenValid(s);
      assert Step(s, e) == SettleOpen(AnnounceOpen(s));
    case TransportError(message) =>
      TransportFailedValid(s, message);
      assert Step(s, e) == TransportFailed(s, message);
  }

  lemma TrafficStepValid(s: Session, e: Event)
    requires Valid(s) && (e.Message? || e.Frame? || e.Ended?)
    ensures Valid(Step(s, e))
  {
    match e
    case Message(m, now) =>
      HandleMessageValid(s, m, now);
      assert Step(s, e) == HandleMessage(s, m, now);
    case Frame(samples) =>
      CaptureFrameValid(s, samples);
      assert Step(s, e) == CaptureFrame(s, samples);
    case Ended(id) =>
      SourceEndedValid(s, id);
      assert Step(s, e) == SourceEnded(s, id);
  }

  lemma ClosingStepValid(s: Session, e: Event)
    requires Valid(s) && (e.TransportClose? || e.SendText? || e.Disconnect?)
    ensures Valid(Step(s, e))
  {
    match e
    case TransportClose =>
      DisconnectValid(s);
      assert Step(s, e) == if !s.isClosing then DisconnectSession(s) else s;
    case SendText(text) =>
      SendTextValid(s, text);
      assert Step(s, e) == SendTextTo(s, text);
    case Disconnect =>
      DisconnectValid(s);
      assert Step(s, e) == DisconnectSession(s);
  }

  /** Any sequence of inputs from a new client keeps the invariant. */
  lemma {:induction false} RunValid(s: Session, es: seq<Event>)
    requires Valid(s)
    ensures Valid(Run(s, es))
    decreases |es|
  {
    if es != [] {
      StepValid(s, es[0]);
      RunValid(Step(s, es[0]), es[1..]);
    }
  }

  /** Whatever happened before, a disconnect leaves the host told of the
      close exactly once, with no live session. */
  lemma DisconnectAnnouncedOnce(es: seq<Event>)
    ensures var t := Run(NewSession(), es + [Disconnect]);
      t.isClosing && !t.connected && ClosedCount(t.log) == 1
  {
    NewSessionValid();
    RunValid(NewSession(), es + [Disconnect]);
    RunSnoc(NewSession(), es, Disconnect);
  }

  /** Further inputs after a disconnect never announce another close. */
  lemma ClosedStaysAnnouncedOnce(s: Session, es: seq<Event>)
    requires Valid(s) && s.isClosing
    ensures ClosedCount(Run(s, es).log) == 1
  {
    RunValid(s, es);
  }

  // ---------------------------------------------------------------------
  // A connect that completes after a disconnect

  /** Once closing, no input changes whether a session is held. */
  lemma ClosingStepKeepsConnected(s: Session, e: Event)
    requires s.isClosing
    ensures Step(s, e).connected == s.connected
  {
    if e.Ended? {
      assert Step(s, e) == SourceEnded(s, e.source);
    }
  }

  lemma {:induction false} ClosingRunKeepsConnected(s: Session, es: seq<Event>)
    requires s.isClosing
    ensures Run(s, es).connected == s.connected
    decreases |es|
  {
    if es != [] {
      ClosingStepKeepsConnected(s, es[0]);
      ClosingRunKeepsConnected(Step(s, es[0]), es[1..]);
    }
  }

  /** As written, a setup that completes after the disconnect leaves a
      session that is never closed: whatever follows, the session promise
      stays set and `session.close()` is never called. */
  lemma LateSetupNeverClosed(s: Session, es: seq<Event>)
    requires s.isClosing
    ensures var t := Run(ConnectAsWritten(s, SetUp), es);
      t.connected && TransportClosed !in Emitted(s, t)
  {
    var s1 := ConnectAsWritten(s, SetUp);
    var t := Run(s1, es);
    ClosingRunKeepsConnected(s1, es);
    assert forall k :: 0 <= k < |Emitted(s, t)| ==> Emitted(s, t)[k] == t.log[|s.log| + k];
  }

  /** As written, a setup that fails after the disconnect is still reported
      to the host. */
  lemma LateFailureReported(s: Session, error: Option<string>)
    requires s.isClosing
    ensures Emitted(s, ConnectAsWritten(s, Threw(error))) ==
      [Failed(if error.Some? then error.value else ConnectErrorMessage)]
  {
  }

  /** With the closing flag read again on completion, a client that was
      disconnected never holds a session again and reports nothing but a
      last return to idle. */
  lemma {:induction false} ClosedNeverReconnects(s: Session, es: seq<Event>)
    requires Valid(s) && s.isClosing
    ensures var t := Run(s, es); t.isClosing && !t.connected && ClosedCount(t.log) == 1
  {
    RunValid(s, es);
  }

  // ---------------------------------------------------------------------
  // Scheduling scenarios

  /** A chunk that arrives while the previous one is still queued starts
      exactly where that one ends: no gap and no overlap. */
  lemma BackToBack(s: Session, d1: real, d2: real, now1: real, now2: real)
    requires d1 >= 0.0 && now2 <= Schedule(s, d1, now1).nextStartTime
    ensures var s1 := Schedule(s, d1, now1);
      var s2 := Schedule(s1, d2, now2);
      Emitted(s1, s2) == [Started(s1.nextSource, s1.nextStartTime, d2)]
  {
  }

  /** After a barge-in the next chunk plays at once: the cursor rewinds to 0
      and the `max` with the current time (never negative) brings it to
      now. */
  lemma BargeInRestartsNow(s: Session, payload: string, now: real)
    requires !s.isClosing && s.connected && DecodeChunk(payload).Ok? && now >= 0.0
    ensures var s1 := HandleInterrupted(s, true);
      var s2 := PlayAudio(s1, payload, now);
      Emitted(s1, s2) == [Started(s.nextSource, now, DecodeChunk(payload).value.Duration())]
  {
  }

  /** A non-empty payload that does not decode to a buffer (not base64, or
      shorter than one sample) still switches the client to speaking, yet
      no buffer plays and the cursor stays; nothing returns it to idle but a
      later turn completion or barge-in. */
  lemma UndecodableAudioStillSpeaks(s: Session, payload: string, now: real)
    requires payload != "" && DecodeChunk(payload).Err?
    ensures var t := HandleAudio(s, Some(payload), now);
      && t.activeState == Speaking && t.sources == s.sources && t.nextStartTime == s.nextStartTime
      && Emitted(s, t) == (if s.activeState == Speaking then [] else [StateChanged(Speaking)])
  {
  }

  /** Both ways a payload can fail to play: "A" is not base64 at all, and
      "AA==" is base64 of a single byte, less than one 16-bit sample. */
  lemma ShortPayloadsDoNotPlay()
    ensures DecodeChunk("A").Err? && DecodeChunk("AA==").Err?
  {
    NotBase64("A");
    OneByte("AA==");
  }

  lemma NotBase64(payload: string)
    requires payload == "A"
    ensures Pcm.Decode(payload).Err?
  {
    Base64.RemoveWhitespaceIdentity(payload);
    assert |Base64.RemoveWhitespace(payload)| % 4 == 1;
  }

  lemma OneByte(payload: string)
    requires payload == "AA=="
    ensures Pcm.Decode(payload).Ok? && |Pcm.Decode(payload).value| == 1
  {
    Base64.RemoveWhitespaceIdentity(payload);
    assert payload[|payload| - 2..] == "==";
    var u := Base64.StripPadding(payload);
    assert u == "AA";
    var xs := Base64.Indices(u);
    assert |Base64.BytesOf(xs)| == 1;
  }

  /** `onended` carries no closing check: a buffer that ends after the
      disconnect, while the client was speaking, still reports idle. */
  lemma EndedAfterCloseReportsIdle(s: Session, id: SourceId)
    requires s.isClosing && s.activeState == Speaking && s.sources == {id}
    ensures Emitted(s, Step(s, Ended(id))) == [StateChanged(Idle)]
  {
  }
}

=== FILE: pcm.dfy ===
/** The PCM codec of the session client: microphone samples become signed
    16-bit little-endian PCM in base64 (`createBlob`, `encode`), and server
    payloads come back as per-channel sample buffers (`decode`,
    `decodeAudioData`). */
module Pcm {
  import opened Results
  import Base64

  type byte = Base64.byte
  type int16 = x: int | -0x8000 <= x < 0x8000

  /** A single-precision sample as the Web Audio API hands it over. Every
      finite float32 is a real number; the arithmetic the codec does on it
      (a product with 32767, a quotient by 32768) is exact in double
      precision, so reals model it without rounding. */
  datatype Float = NaN | Infinity(negative: bool) | Finite(value: real)

  const InputSampleRate: nat := 16000
  const OutputSampleRate: nat := 24000
  const InputMimeType: string := "audio/pcm;rate=16000"
  /** The factor a clamped sample is multiplied by before the Int16 store. */
  const EncodeScale: real := 32767.0
  /** The divisor that turns a stored Int16 back into a sample. */
  const DecodeScale: real := 32768.0

  // ---------------------------------------------------------------------
  // Float samples to Int16

  /** Truncation toward zero of a finite number. */
  function Truncate(r: real): (n: int)
    ensures r >= 0.0 ==> 0.0 <= n as real <= r < n as real + 1.0
    ensures r < 0.0 ==> n as real - 1.0 < r <= n as real <= 0.0
  {
    if r >= 0.0 then r.Floor else -((-r).Floor)
  }

  /** ECMAScript's ToInt16, what a store into an `Int16Array` does: NaN and
      the infinities become 0, anything else is truncated and wrapped into
      [-32768, 32768). */
  function ToInt16(v: Float): (n: int16)
    ensures !v.Finite? ==> n == 0
    ensures v.Finite? ==> (n - Truncate(v.value)) % 0x1_0000 == 0
    ensures v.Finite? && -32768.0 < v.value < 32768.0 ==> n == Truncate(v.value)
  {
    match v
    case Finite(r) =>
      var m := Truncate(r) % 0x1_0000;
      if m >= 0x8000 then m - 0x1_0000 else m
    case _ => 0
  }

  /** `Math.max(-1, Math.min(1, x))`: NaN stays NaN, the rest lands in [-1, 1]. */
  function Clamp(x: Float): (c: Float)
    ensures x.NaN? <==> c.NaN?
    ensures c.Finite? ==> -1.0 <= c.value <= 1.0
    ensures x.Finite? && -1.0 <= x.value <= 1.0 ==> c == x
  {
    match x
    case NaN => NaN
    case Infinity(negative) => Finite(if negative then -1.0 else 1.0)
    case Finite(r) => Finite(if r < -1.0 then -1.0 else if r > 1.0 then 1.0 else r)
  }

  /** The Int16 the encoder stores for one sample. */
  function EncodeSample(x: Float): (n: int16)
    ensures -32767 <= n <= 32767
    ensures x.NaN? ==> n == 0
    ensures x == Infinity(false) || (x.Finite? && x.value >= 1.0) ==> n == 32767
    ensures x == Infinity(true) || (x.Finite? && x.value <= -1.0) ==> n == -32767
    ensures x.Finite? && 0.0 <= x.value < 1.0 ==>
      EncodeScale * x.value - 1.0 < n as real <= EncodeScale * x.value
    ensures x.Finite? && -1.0 < x.value < 0.0 ==>
      EncodeScale * x.value <= n as real < EncodeScale * x.value + 1.0
  {
    match Clamp(x)
    case Finite(c) => ToInt16(Finite(EncodeScale * c))
    case _ => ToInt16(NaN)
  }

  // ---------------------------------------------------------------------
  // Little-endian packing (the `Uint8Array` view of an `Int16Array` buffer
  // on a little-endian host)

  function LowByte(v: int16): byte {
    (v % 0x1_0000) % 0x100
  }

  function HighByte(v: int16): byte {
    (v % 0x1_0000) / 0x100
  }

  /** The two's-complement value of a little-endian byte pair. */
  function FromLE(lo: byte, hi: byte): (v: int16)
    ensures (v - (lo + 0x100 * hi)) % 0x1_0000 == 0
    ensures LowByte(v) == lo && HighByte(v) == hi
  {
    var u := lo + 0x100 * hi;
    if u >= 0x8000 then u - 0x1_0000 else u
  }

  lemma FromLEBytes(v: int16)
    ensures FromLE(LowByte(v), HighByte(v)) == v
  {
  }

  /** The bytes of an Int16 buffer: sample `i` at bytes `2i` (low) and `2i+1`. */
  function Pack(vs: seq<int16>): (b: seq<byte>)
    ensures |b| == 2 * |vs|
    ensures forall i :: 0 <= i < |vs| ==> b[2 * i] == LowByte(vs[i]) && b[2 * i + 1] == HighByte(vs[i])
  {
    if |vs| == 0 then []
    else
      var rest := Pack(vs[1..]);
      var b := [LowByte(vs[0]), HighByte(vs[0])] + rest;
      assert forall i :: 1 <= i < |vs| ==> b[2 * i] == rest[2 * (i - 1)] && b[2 * i + 1] == rest[2 * (i - 1) + 1];
      b
  }

  /** `new Int16Array(data.buffer, data.byteOffset, data.byteLength / 2)`:
      the length argument is truncated, so an odd trailing byte is ignored. */
  function Unpack(b: seq<byte>): (vs: seq<int16>)
    ensures |vs| == |b| / 2
    ensures forall i :: 0 <= i < |vs| ==> vs[i] == FromLE(b[2 * i], b[2 * i + 1])
  {
    seq(|b| / 2, i requires 0 <= i < |b| / 2 => FromLE(b[2 * i], b[2 * i + 1]))
  }

  /** Packing then viewing as Int16 gives the samples back. */
  lemma UnpackPack(vs: seq<int16>)
    ensures Unpack(Pack(vs)) == vs
  {
    var b := Pack(vs);
    forall i | 0 <= i < |vs|
      ensures Unpack(b)[i] == vs[i]
    {
      FromLEBytes(vs[i]);
    }
  }

  /** Viewing an even-length byte buffer as Int16 and packing it again gives
      the bytes back: for even lengths the two views are inverse. */
  lemma PackUnpack(b: seq<byte>)
    requires |b| % 2 == 0
    ensures Pack(Unpack(b)) == b
  {
    var p := Pack(Unpack(b));
    forall j | 0 <= j < |b|
      ensures p[j] == b[j]
    {
      var i := j / 2;
      PackUnpackPair(b, i);
      assert j == 2 * i || j == 2 * i + 1;
    }
  }

  /** One sample's two bytes survive viewing and repacking. */
  lemma PackUnpackPair(b: seq<byte>, i: nat)
    requires i < |b| / 2
    ensures 2 * i + 1 < |Pack(Unpack(b))|
    ensures Pack(Unpack(b))[2 * i] == b[2 * i] && Pack(Unpack(b))[2 * i + 1] == b[2 * i + 1]
  {
    var v := Unpack(b)[i];
    assert v == FromLE(b[2 * i], b[2 * i + 1]);
  }

  // ---------------------------------------------------------------------
  // Base64 transport (`encode` and `decode` of the client)

  /** `encode`: the bytes as a binary string, through `btoa`. */
  function Encode(bytes: seq<byte>): (s: string)
    ensures Base64.Btoa(Base64.Latin1(bytes)).Ok?
    ensures |s| % 4 == 0
  {
    Base64.Btoa(Base64.Latin1(bytes)).value
  }

  /** `decode`: `atob`, then `charCodeAt` per character; `atob`'s
      `InvalidCharacterError` propagates. */
  function Decode(s: string): (r: Result<seq<byte>>)
    ensures r.Ok? <==> Base64.Atob(s).Ok?
    ensures r.Ok? ==> Base64.Latin1(r.value) == Base64.Atob(s).value
  {
    match Base64.Atob(s)
    case Ok(binary) =>
      Base64.CodesLatin(binary);
      Ok(Base64.Codes(binary))
    case Err(e) => Err(e)
  }

  /** `decode(encode(b)) == b` for every byte sequence, the empty one too. */
  lemma DecodeEncode(bytes: seq<byte>)
    ensures Decode(Encode(bytes)) == Ok(bytes)
  {
    var s := Base64.Latin1(bytes);
    Base64.AtobBtoa(s);
    Base64.LatinCodes(bytes);
    assert Base64.Codes(s) == bytes;
  }

  // ---------------------------------------------------------------------
  // Frames on the wire

  datatype Blob = Blob(data: string, mimeType: string)

  function EncodeSamples(samples: seq<Float>): (vs: seq<int16>)
    ensures |vs| == |samples|
    ensures forall i :: 0 <= i < |samples| ==> vs[i] == EncodeSample(samples[i])
  {
    seq(|samples|, i requires 0 <= i < |samples| => EncodeSample(samples[i]))
  }

  /** `createBlob`: the frame as base64 Int16 PCM, tagged with the 16 kHz
      input format. */
  function CreateBlob(samples: seq<Float>): (blob: Blob)
    ensures blob.mimeType == InputMimeType
    ensures Decode(blob.data) == Ok(Pack(EncodeSamples(samples)))
  {
    var bytes := Pack(EncodeSamples(samples));
    DecodeEncode(bytes);
    Blob(Encode(bytes), InputMimeType)
  }

  // ---------------------------------------------------------------------
  // Playback buffers

  /** An `AudioBuffer`: `channels[c][i]` is frame `i` of channel `c`. */
  datatype AudioBuffer = AudioBuffer(sampleRate: nat, length: nat, channels: seq<seq<real>>)
  {
    /** `AudioBuffer.duration`, in seconds. */
    function Duration(): real
      requires sampleRate > 0
    {
      length as real / sampleRate as real
    }
  }

  /** `createBuffer`'s nominal ranges (Web Audio API, BaseAudioContext): one
      to 32 channels, at least one frame, a rate from 3000 to 768000 Hz;
      outside them it throws `NotSupportedError`. */
  predicate BufferShapeSupported(numChannels: int, frames: int, sampleRate: int) {
    1 <= numChannels <= 32 && frames >= 1 && 3000 <= sampleRate <= 768000
  }

  /** Where frame `i` of channel `c` sits in an interleaved buffer of
      `n` channels. */
  function Slot(i: nat, n: nat, c: nat): nat {
    i * n + c
  }

  lemma SlotInRange(i: nat, n: nat, c: nat, frames: nat, len: nat)
    requires c < n && i < frames && frames * n <= len
    ensures Slot(i, n, c) < len
  {
    assert (i + 1) * n <= frames * n;
  }

  lemma SlotDivMod(i: nat, n: nat, c: nat)
    requires c < n
    ensures Slot(i, n, c) / n == i && Slot(i, n, c) % n == c
  {
    var x := Slot(i, n, c);
    var q, r := x / n, x % n;
    assert x == q * n + r;
    if q > i {
      MulLe(i + 1, q, n);
    } else if q < i {
      MulLe(q + 1, i, n);
    }
  }

  lemma MulLe(a: int, b: int, n: nat)
    requires a <= b
    ensures a * n <= b * n
  {
  }

  lemma WholeFrames(len: nat, n: nat)
    requires n >= 1
    ensures (len / n) * n <= len
  {
  }

  /** `decodeAudioData`: the Int16 view of the bytes, de-interleaved, channel
      `c` of frame `i` read from index `i * numChannels + c` and divided by
      32768. The frame count is truncated to whole frames. */
  function DecodeAudioData(data: seq<byte>, sampleRate: nat, numChannels: nat): (r: Result<AudioBuffer>)
    ensures r.Ok? <==> numChannels >= 1 && BufferShapeSupported(numChannels, |data| / 2 / numChannels, sampleRate)
    ensures r.Ok? ==>
      && r.value.sampleRate == sampleRate
      && r.value.length == |data| / 2 / numChannels
      && |r.value.channels| == numChannels
      && forall c :: 0 <= c < numChannels ==> |r.value.channels[c]| == r.value.length
    ensures r.Ok? ==> forall c, i :: 0 <= c < numChannels && 0 <= i < r.value.length ==>
      Slot(i, numChannels, c) < |data| / 2 &&
      r.value.channels[c][i] == Unpack(data)[Slot(i, numChannels, c)] as real / DecodeScale
    ensures r.Ok? ==> forall c, i :: 0 <= c < numChannels && 0 <= i < r.value.length ==>
      -1.0 <= r.value.channels[c][i] < 1.0
  {
    var ints := Unpack(data);
    if numChannels == 0 then Err("NotSupportedError")
    else
      var n := numChannels;
      var frames := |ints| / n;
      if !BufferShapeSupported(n, frames, sampleRate) then Err("NotSupportedError")
      else
        WholeFrames(|ints|, n);
        var channels := seq(n, c requires 0 <= c < n =>
          seq(frames, i requires 0 <= i < frames =>
            SlotInRange(i, n, c, frames, |ints|);
            ints[Slot(i, n, c)] as real / DecodeScale));
        assert forall c, i :: 0 <= c < n && 0 <= i < frames ==> Slot(i, n, c) < |ints| by {
          forall c, i | 0 <= c < n && 0 <= i < frames
            ensures Slot(i, n, c) < |ints|
          {
            SlotInRange(i, n, c, frames, |ints|);
          }
        }
        Ok(AudioBuffer(sampleRate, frames, channels))
  }

  /** Interleaves equally long channels: frame `i` of channel `c` goes to
      index `i * |chans| + c`. */
  function Interleave(chans: seq<seq<int16>>, frames: nat): (vs: seq<int16>)
    requires forall c :: 0 <= c < |chans| ==> |chans[c]| == frames
    ensures |vs| == frames * |chans|
    ensures forall c, i :: 0 <= c < |chans| && 0 <= i < frames ==>
      Slot(i, |chans|, c) < |vs| && vs[Slot(i, |chans|, c)] == chans[c][i]
  {
    var n := |chans|;
    var vs := seq(frames * n, k requires 0 <= k < frames * n =>
      InterleaveIndex(k, frames, n);
      chans[k % n][k / n]);
    forall c, i | 0 <= c < n && 0 <= i < frames
      ensures Slot(i, n, c) < |vs| && vs[Slot(i, n, c)] == chans[c][i]
    {
      SlotInRange(i, n, c, frames, frames * n);
      SlotDivMod(i, n, c);
    }
    vs
  }

  lemma InterleaveIndex(k: nat, frames: nat, n: nat)
    requires k < frames * n
    ensures n > 0 && k / n < frames && k % n < n
  {
  }

  /** Interleaved Int16 channels, packed little-endian and decoded again,
      come back channel by channel, each sample scaled by 1/32768. */
  lemma DecodeInterleaved(chans: seq<seq<int16>>, frames: nat, sampleRate: nat)
    requires forall c :: 0 <= c < |chans| ==> |chans[c]| == frames
    requires BufferShapeSupported(|chans|, frames, sampleRate)
    ensures
      var r := DecodeAudioData(Pack(Interleave(chans, frames)), sampleRate, |chans|);
      && r.Ok? && r.value.length == frames
      && forall c, i :: 0 <= c < |chans| && 0 <= i < frames ==>
           r.value.channels[c][i] == chans[c][i] as real / DecodeScale
  {
    var n := |chans|;
    var vs := Interleave(chans, frames);
    var data := Pack(vs);
    UnpackPack(vs);
    assert |data| / 2 == frames * n;
    SlotDivMod(frames, n, 0);
    var r := DecodeAudioData(data, sampleRate, n);
    forall c, i | 0 <= c < n && 0 <= i < frames
      ensures r.value.channels[c][i] == chans[c][i] as real / DecodeScale
    {
      assert Unpack(data)[Slot(i, n, c)] == vs[Slot(i, n, c)];
    }
  }

  /** A mono frame sent by the encoder and played back by the decoder gives
      every in-range sample back to within two quantization steps. */
  lemma EncodeDecodeError(x: real)
    requires -1.0 <= x <= 1.0
    ensures
      var back := EncodeSample(Finite(x)) as real / DecodeScale;
      -2.0 / DecodeScale < back - x < 2.0 / DecodeScale
  {
    var t := ToInt16(Finite(EncodeScale * Clamp(Finite(x)).value));
    assert Clamp(Finite(x)) == Finite(x);
    assert t == Truncate(EncodeScale * x);
  }

  /** One quantization step is not enough: the sample 1 - 2^-16 (a float32)
      comes back 1.5 steps low, because the encoder scales by 32767 and
      truncates while the decoder divides by 32768. */
  lemma EncodeDecodeErrorExceedsOneStep()
    ensures
      var x := 1.0 - 1.0 / 65536.0;
      EncodeSample(Finite(x)) == 32766
      && x - EncodeSample(Finite(x)) as real / DecodeScale == 1.5 / DecodeScale
  {
    var x := 1.0 - 1.0 / 65536.0;
    assert EncodeScale * x == 32766.5 + 1.0 / 65536.0;
    assert Truncate(EncodeScale * x) == 32766;
  }
}

=== FILE: results.dfy ===
/** Failure-carrying values shared by the codec, the session client and the host. */
module Results {

  /** An optional value: an absent field of a server message, an unset ref. */
  datatype Option<+T> = None | Some(value: T)

  /** The outcome of an operation the source may throw from; `Err` carries the
      error's message text. */
  datatype Result<+T> = Ok(value: T) | Err(message: string)
}
